=== FILE: README.md ===
# Crewai-MCP research assistant — a Dafny model of its decision logic

The research assistant is a Streamlit front end (`app.py`) that runs an agent
program (`main.py`) as a child process, reads the agent's console transcript
back and extracts one answer from it. The agent program picks an LLM provider,
assembles and tests MCP tool servers, and kicks off its crew with retries. A
Brave search server (`servers/search_server.py`) turns API replies into result
records. A setup helper (`setup_nodejs.py`) checks Node.js, masks API keys and
reads a yes/no answer.

This project models the pure decision and string logic of those four files.
Processes, environment variables, the filesystem and HTTP become inputs: an
outcome value, a map, or a predicate.

| file | module | models |
|---|---|---|
| `wrappers.dfy` | `Wrappers` | `Option` and `Result` |
| `seqs.dfy` | `Seqs` | generic sequence tools: filter, first match, filter-map, flat-map, windows, trailing and last runs |
| `pystr.dfy` | `PyStr` | the Python `str` operations the code relies on: `isspace`/`strip`, `in`, `split`, `join`, `replace`, `lower` on ASCII, `lstrip(c)`, `int()` and `str()` of integers |
| `extractor.dfy` | `Extractor` | `extract_final_result`: the marker, label and last-block strategies and the fixed fallback sentence |
| `display.dfy` | `Display` | `find_venv_python`, the outcome of `run_research`, the ANSI colour-code removal and the download file name |
| `commands.dfy` | `Commands` | outcomes of `node --version`/`npx --version` and the Node.js major-version gate (shared by `main.py` and `setup_nodejs.py`) |
| `selection.dfy` | `Selection` | `get_available_llm`, `get_working_servers`, `test_servers_individually`, the kickoff retry loop and the default topic |
| `setup.dfy` | `Setup` | key masking in `check_environment`, the yes/no answer, and the follow-up `main` offers |
| `search.dfy` | `Search` | `brave_search` and `search_news`: count clamping, request shape, error replies, result records, news-to-web fallback, results file name |

Three consequences of the code are worth knowing:

- **Fallback sentence.** The fixed sentence does not show that every strategy failed: a marker line can end with it (`Extractor.FallbackTextIsAmbiguous`).
- **LLM fallback.** The key-less Ollama entry is tried before the hard-coded Groq fallback, so that fallback is reached only when building the Ollama entry fails (`Selection.FallbackOnlyIfLocalFails`).
- **Decorative transcripts.** The third strategy counts a line of more than thirty `=` characters as substantial, because only the UI markers are excluded. So a transcript made only of such rules does not reach the fallback sentence. `Extractor.LastBlockStrategyIsLastRun` states the rule as the code has it.

## Model

| member | source | states |
|---|---|---|
| Extractor.MarkerStart | app.py:68-73 | start index is 0 when the whole output holds fifty `=`, a newline and `FINAL RESULT:`; otherwise it is the first line with the marker, and no line before it has one; none when no line has it |
| Extractor.MarkerPiece | app.py:80-92 | a line contributes a non-empty, stripped piece or nothing; its value for boxed lines is given by BoxedMarkerPiece |
| Extractor.DeleteFrame | app.py:87-89 | a tidy text framed by two deleted characters and blanks cleans back to the text |
| Extractor.BoxedMarkerPiece | app.py:87-92 | a line `b t e` with box characters `b`, `e` around a plain text `t` holds no marker and contributes `t` |
| Extractor.MarkerPiecesTidy | app.py:78-92 | every collected piece is non-empty and stripped |
| Extractor.MarkerStrategy | app.py:75-95 | a marker answer is non-empty and stripped, and exists only when some start line was found |
| Extractor.PlainPiece | app.py:87-92 | a one-line, stripped line without marker or box characters contributes itself |
| Extractor.MarkerPiecesOfPlain | app.py:87-92 | a sequence of such plain lines is collected unchanged |
| Extractor.BareMarkerPiece | app.py:80-85 | a line holding only the marker is skipped and contributes nothing |
| Extractor.RulePiece | app.py:87-92 | the fifty-`=` rule survives cleaning, because `=` is not a box character |
| Extractor.RepeatedPlain | app.py:87-92 | a repeated non-space, non-box character that cannot start the marker is a plain line |
| Extractor.ConstantsAreSingleLines | app.py:71 | the marker and the rule contain no newline |
| Extractor.LinesOfJoin | app.py:66 | splitting the newline-join of single lines gives those lines back |
| Extractor.MarkerStartOnLines | app.py:69-73 | without the rule-then-marker text, the start is the first line holding the marker |
| Extractor.MarkerStrategyOnLines | app.py:75-95 | from a known start, the answer is the newline-join of the pieces from that line on |
| Extractor.MarkerLineLayout | app.py:69-92 | plain lines after a bare marker line are the pieces collected from that line |
| Extractor.CaptureFromMarkerLine | app.py:69-95 | when the rule is not directly above the marker, the answer is the join of the lines after the first marker line; earlier lines are ignored |
| Extractor.MarkerBlockRecovered | app.py:69-95 | the same, for a bare marker line followed by plain lines |
| Extractor.RuleMarkerOccurs | app.py:71 | a rule line directly above a marker line makes the whole output hold the rule-then-marker text |
| Extractor.RuleMarkerCapturesPreamble | app.py:71-95 | with the rule directly above the marker, capture starts at line 0, so the lines before the rule are part of the answer |
| Extractor.PreamblePieces | app.py:78-92 | collecting from line 0 keeps the preamble and the rule and drops only the bare marker line |
| Extractor.PiecesAroundDropped | app.py:78-92 | a dropped line between kept lines removes only itself |
| Extractor.LabelTail | app.py:105-108 | a label line adds at most one tidy piece, and only when it holds `Final Answer:`; its value is given by LabelLineTail |
| Extractor.LabelLineTail | app.py:102-108 | `Final Answer: t` for a tidy `t` is a label line that adds exactly `t` |
| Extractor.HeadingAddsNothing | app.py:102-108 | a `## Final Answer` line without any colon starts the capture and adds nothing itself |
| Extractor.LabelLineNoMarker | app.py:70 | `Final Answer: t` holds the marker only when `t` does |
| Extractor.LabelLineAnswer | app.py:64-128 | the one-line transcript `Final Answer: t`, with no marker in `t`, makes the marker strategy fail and yields exactly `t` |
| Extractor.LabelClean | app.py:112-113 | the cleaned line is stripped, holds no deleted character, and is the stripped line when it held none |
| Extractor.BoxedLabelPiece | app.py:111-125 | a non-label line `b t e` with deleted characters `b`, `e` around a tidy `t` of more than ten characters adds exactly `t` |
| Extractor.LabelLinesTidy | app.py:101-125 | every piece the label loop collects is non-empty and stripped |
| Extractor.LabelLines | app.py:101-125 | the label loop adds at most one piece per line |
| Extractor.LabelStrategy | app.py:98-128 | a label answer is non-empty and stripped |
| Extractor.LabelPiece | app.py:102-125 | what one line inside the window adds: stripped, non-empty pieces; the values are given by LabelLineTail, HeadingAddsNothing and BoxedLabelPiece |
| Extractor.CapturingStep | app.py:111-125 | while capturing, a line that does not stop the capture adds its piece and capture continues |
| Extractor.CapturingWindow | app.py:111-125 | while capturing, the loop collects the pieces of the lines before the first non-label line with an end phrase |
| Extractor.IdleStep | app.py:101-111 | before capture, a non-label line is skipped |
| Extractor.IdleUntilLabel | app.py:101-111 | before capture, everything up to the first label line is skipped, and capture starts with that line's tail; with no label line nothing is collected |
| Extractor.LabelLinesIsWindow | app.py:101-125 | the label loop equals a window reading: the label line's tail, then each later line's piece, up to the first non-label line with an end phrase |
| Extractor.LabelStrategyIsWindow | app.py:98-128 | the label strategy answers exactly when that window is non-empty, with the window joined by newlines |
| Extractor.NoLabelNoPieces | app.py:101-128 | with no label line the label loop collects nothing |
| Extractor.StepBySubstantial | app.py:134-147 | one loop step: a substantial line extends the block, any other line (chrome or short) closes it |
| Extractor.ScanStep | app.py:136-147 | one step closes at most one block, and a block is open afterwards exactly when the line was substantial |
| Extractor.Scan | app.py:134-147 | closed blocks and open lines together never outnumber the lines read |
| Extractor.Blocks | app.py:134-151 | there are never more blocks than lines |
| Extractor.ExtendKeepsInvariant | app.py:142-144 | a substantial line keeps the loop state equal to the reference: the open block is the stripped trailing run |
| Extractor.CloseKeepsInvariant | app.py:136-147 | any other line closes the block, and the last closed block is the last run so far |
| Extractor.CloseOpenBlock | app.py:149-151 | closing a non-empty open block appends the text of the last run |
| Extractor.ScanKeepsInvariant | app.py:134-151 | after any prefix, the loop state agrees with the trailing-run and last-run reference |
| Extractor.RunTextTidy | app.py:138-155 | a run of substantial lines becomes a non-empty, stripped block |
| Extractor.LastBlockIsLastRun | app.py:131-155 | a block exists exactly when some line is substantial, and the last block is the text of the last maximal run of substantial lines |
| Extractor.LastBlockStrategy | app.py:131-155 | a last-block answer is non-empty and stripped |
| Extractor.LastBlockOfBlocks | app.py:154-155 | the third strategy returns the last block unchanged, since it is already stripped |
| Extractor.LastBlockStrategyIsLastRun | app.py:131-155 | the third strategy answers exactly when some line is substantial, with the text of the last maximal run |
| Extractor.FallbackTidy | app.py:157 | the fallback sentence is non-empty and stripped |
| Extractor.FallbackSingleLine | app.py:157 | the fallback sentence is one line |
| Extractor.ExtractFinalResult | app.py:64-157 | the extractor is total, never empty and never padded; when all three strategies fail it returns the fallback sentence |
| Extractor.MarkerWins | app.py:94-95 | a marker answer wins over everything else |
| Extractor.MarkerFallsThrough | app.py:94-155 | with no marker answer, the label answer is used, and else the last-block answer |
| Extractor.BlankLineInert | app.py:64-157 | a blank line has no marker, no label and is not substantial |
| Extractor.BlankTranscriptFallback | app.py:64-157 | a transcript of whitespace only yields the fallback sentence |
| Extractor.SingleMarkerLine | app.py:75-95 | a one-line transcript holding the marker answers with that line's piece |
| Extractor.MarkerBlankPiece | app.py:82-84 | `FINAL RESULT: t` contributes `t` when `t` is stripped and non-empty |
| Extractor.MarkerLineAnswer | app.py:64-95 | the one-line transcript `FINAL RESULT: t` yields exactly `t` |
| Extractor.FallbackTextIsAmbiguous | app.py:157 | the fallback sentence can also come from a marker line, so it does not prove that all strategies failed |
| Display.ParamRun | app.py:230 | the greedy run of `[\d;]` characters at the front of the text |
| Display.SgrLength | app.py:230 | a match of `\x1b\[[\d;]*m` spans at least three characters and stays inside the text |
| Display.StripAnsi | app.py:231 | the substitution never makes the text longer |
| Display.StripAnsiIsSubsequence | app.py:231 | the result is a subsequence of the input: nothing is invented or reordered |
| Display.PlainTextUnchanged | app.py:231 | text without an escape character is unchanged |
| Display.PlainPrefixKept | app.py:231 | an escape-free prefix passes through in front of the rest's result |
| Display.SgrDeleted | app.py:230-231 | a complete colour sequence, whatever its parameters, is deleted |
| Display.ColouredTextRecovered | app.py:230-231 | colour codes wrapped around plain text leave exactly the text |
| Display.UnfinishedKept | app.py:231 | an escape and bracket followed by another escape start no match and are kept |
| Display.OnePassNotIdempotent | app.py:230-231 | one pass can leave a complete colour sequence behind, because a nested sequence completes the outer one |
| Display.DownloadName | app.py:241 | `research_`, then the topic (default `topic`) character by character with each space turned into `_`, then `.txt` |
| Display.DownloadNameNamesTopic | app.py:241 | for a topic without `_`, turning `_` back into spaces recovers the topic from the name |
| Display.FirstExisting | app.py:20-23 | the result is one of the candidates or the running interpreter |
| Display.FirstExistingIsFirst | app.py:20-22 | the earliest existing candidate is returned |
| Display.NoneExisting | app.py:23 | with no existing candidate, the running interpreter is returned |
| Display.VenvCandidates | app.py:13-18 | four candidate interpreters, all under the application directory |
| Display.FindVenvPython | app.py:10-23 | when a candidate exists, an existing candidate is returned; when none does, the running interpreter |
| Display.RunResearch | app.py:25-62 | exactly one of result and error is set; a result exactly on exit status 0, and then it is the extractor's answer |
| Display.FailedRunReportsCode | app.py:56 | a non-zero exit reports `Error (return code `, the status (which parses back to the code) and the whole error stream |
| Commands.MajorVersion | main.py:212-215 | a major version is read only when the text before the first `.` is non-empty |
| Commands.NodeCompatible | main.py:206-225 | compatible only after a successful run; which releases pass is stated over their spellings by `Commands.ReleaseMajor` and `Commands.NodeGateOnRelease` |
| Commands.SplitHead | main.py:215 | the first piece of a split is the text before the first separator |
| Commands.DottedHead | main.py:215 | digits followed by nothing or by `.` are the first piece |
| Commands.MajorOfDotted | main.py:215 | the decimal major number followed by `.parts` is the first piece |
| Commands.VPrefixDropped | main.py:215 | any number of leading `v`s are removed, and the rest stays |
| Commands.ReleaseMajor | main.py:212-215 | `v<major>[.minor…]`, however padded with whitespace, has that major version |
| Commands.NodeGateOnRelease | setup_nodejs.py:17-30 | on a successful run the gate is exactly `major >= 18` |
| Commands.EmptyVersionIncompatible | main.py:215-225 | empty output has no major version and is incompatible, since `int('')` raises |
| Commands.ForeignMajorIncompatible | main.py:215-225 | a major part holding a character `int()` never accepts has no major version, so even a successful run is incompatible |
| Selection.GetEnv | main.py:65 | a value exactly for the variables that are set |
| Selection.TriedWith | main.py:54-66 | a key-less entry is always tried; a keyed one only when its variable is set and non-empty |
| Selection.SelectLlm | main.py:52-87 | a chosen provider is in the list and usable; otherwise the hard-coded Groq model |
| Selection.SelectLlmIsFirstUsable | main.py:52-87 | the choice is the first usable entry in list order, with its key; with none, the Groq fallback with `GROQ_API_KEY` or `""` |
| Selection.EmptyKeyIsAbsent | main.py:65-66 | a variable set to `""` selects exactly as an unset one |
| Selection.FallbackOnlyIfLocalFails | main.py:43-87 | the fallback is reached exactly when no listed provider is usable, and so only if building the key-less Ollama entry fails |
| Selection.GroqFirst | main.py:64-74 | with a Groq key whose LLM builds, Groq is chosen |
| Selection.ServersDistinct | main.py:151-193 | the three server configurations differ from each other |
| Selection.ServerScript | main.py:155 | the script path is the base directory, then `servers` between two separators, then the file name |
| Selection.PythonServer | main.py:151-173 | the image and search servers run `python` on their script under `servers/`, with their name |
| Selection.FilesystemServer | main.py:186-194 | the server named `Filesystem Server` runs `npx -y @modelcontextprotocol/server-filesystem` on the downloads folder |
| Selection.WorkingServers | main.py:140-204 | at most three servers, in the order image, search, filesystem; image and search exactly when their script exists; filesystem exactly when npx runs and Node.js passes the gate |
| Selection.TestServersIndividually | main.py:233-252 | the servers that connected, in their original order, and no others |
| Selection.TestedServersAreSublist | main.py:241-252 | the tested list is a subsequence of the input, every member connected, and its length is the count of connecting servers |
| Selection.Named | main.py:158-194 | each configured server is paired with its name, and the descriptions come back unchanged |
| Selection.WorkingThenTested | main.py:233-252 | testing the configured servers keeps a subsequence of them, each connecting; the image server survives exactly when its script exists and it connects |
| Selection.Kickoff | main.py:355-375 | at most three attempts; earlier attempts all failed; success exactly when the last attempt succeeded, with its summary; on failure all three failed and the last error is re-raised |
| Selection.DefaultTopic | main.py:349-352 | the topic is non-empty and stripped: the stripped answer, or `artificial intelligence` |
| Selection.DefaultTopicStable | main.py:349-352 | applying the rule twice changes nothing, and a non-blank answer is used stripped |
| Selection.BlankAnswerIsDefault | main.py:400-403 | a blank answer becomes `artificial intelligence` |
| Setup.Mask | setup_nodejs.py:116 | a value longer than 8 gives its first four characters, `***` and its last four, 11 characters in all; shorter ones give exactly `***` |
| Setup.MaskHidesMiddle | setup_nodejs.py:116 | values that agree on their first and last four characters are masked alike |
| Setup.MaskShowsOnlyEnds | setup_nodejs.py:116 | every shown character is a `*` or a character of the value |
| Setup.EnvStatus | setup_nodejs.py:113-119 | a mask is reported exactly when the variable is set and non-empty |
| Setup.EnvReport | setup_nodejs.py:95-119 | one report per listed variable, in order, with its description, masked exactly when set and non-empty |
| Setup.EmptyVariableNotSet | setup_nodejs.py:114-119 | a variable set to `""` is reported like a missing one |
| Setup.Accepts | setup_nodejs.py:142-143 | an answer is accepted exactly when, stripped, it is `y` or `yes` with each letter in either case |
| Setup.LowersTo | setup_nodejs.py:142-143 | lower-casing gives `y` or `yes` exactly for their capitalisations |
| Setup.AcceptedShape | setup_nodejs.py:142-143 | an accepted answer is one or three characters once stripped and starts with `y` or `Y` |
| Setup.AcceptsSpellings | setup_nodejs.py:149-150 | every capitalisation of `y` and `yes` is accepted |
| Setup.BlankAnswerDeclines | setup_nodejs.py:142-143 | a blank answer is a no |
| Setup.AcceptsIgnoresBlanks | setup_nodejs.py:149-150 | surrounding whitespace does not change the reading |
| Setup.NextAction | setup_nodejs.py:135-151 | the server test is offered only with a working Node.js, the download page only without one, and either only on an accepted answer |
| Search.Get | servers/search_server.py:111-115 | `.get` answers only on a dict: the value for the key, else the default |
| Search.Items | servers/search_server.py:109 | a list is iterated element by element |
| Search.Section | servers/search_server.py:107 | the results of a section are read exactly when the data and the section are dicts |
| Search.WebItems | servers/search_server.py:107 | a list under `web.results` is iterated; no `web` section gives no results; a non-dict reply raises |
| Search.NewsItems | servers/search_server.py:225-228 | a non-empty list under `news.results` is used; a missing `news` section or an empty list falls back to the web results |
| Search.Nested | servers/search_server.py:115 | the read raises exactly when the value is truthy and not a dict; otherwise it gives the inner field of a truthy dict, else `""` |
| Search.WebRecordOf | servers/search_server.py:110-116 | a record is built exactly from a dict whose thumbnail can be read; title, url, description and published are the fields or `""`, the thumbnail is `src` of a truthy dict, else `""` |
| Search.NewsRecordOf | servers/search_server.py:231-238 | a record is built exactly from a dict whose profile and thumbnail can be read; `published` is `age`, else `published`, else `""`; source is `profile.name` of a truthy dict, else `""` |
| Search.ClampCount | servers/search_server.py:56 | the count is clamped to 1..20, and values in range are unchanged |
| Search.ClampMonotone | servers/search_server.py:172 | clamping keeps order and is idempotent |
| Search.WebRequest | servers/search_server.py:56-75 | the web request carries the query, the count clamped to 1..20, freshness `pw` and no result filter |
| Search.NewsRequest | servers/search_server.py:172-191 | the news request carries the query, the count clamped to 1..20, freshness `pd` and the news result filter |
| Search.Tool | servers/search_server.py:45-147 | every failure has empty results and an error; success exactly when a key is set, the reply decodes, and every result becomes a record; then the results are those records, one per item in order, and the total is their number |
| Search.BraveSearch | servers/search_server.py:34-147 | failure has no results and an error; success exactly when a key is set, the reply decodes and every web result gives a record; then the results are the web records of the web items, in order, and the total is their number |
| Search.SearchNews | servers/search_server.py:150-256 | failure has no results and an error; success exactly when a key is set, the reply decodes and every news item gives a record; then the results are the news records of the news items, in order, and the total is their number |
| Search.NoKeyNoRequest | servers/search_server.py:48-53 | without a key both tools reply `BRAVE_API_KEY not configured` and the network is never consulted |
| Search.RequestCountClamped | servers/search_server.py:56 | for every count both requests carry the clamped count; in-range counts pass unchanged, counts above 20 give the request for 20, counts below 1 the request for 1 |
| Search.WebRecordsFollowResults | servers/search_server.py:106-139 | for a list of dicts, the search succeeds exactly when every thumbnail can be read, and then gives one record per result, in order, with every field read from the result |
| Search.WebRecordsOfObjects | servers/search_server.py:109-117 | dicts give records exactly when every thumbnail can be read, and then each record holds all five fields read from its dict |
| Search.NewsRecordsFollowResults | servers/search_server.py:222-249 | for a non-empty list of news dicts, the search succeeds exactly when every profile and thumbnail can be read, and then gives one news record per result, in order, with every field read from the result |
| Search.NewsRecordsOfObjects | servers/search_server.py:230-239 | dicts give news records exactly when every profile and thumbnail can be read, and then each record holds all six fields read from its dict |
| Search.NewsFallsBackToWeb | servers/search_server.py:225-228 | a missing or empty news section means the web results are used |
| Search.NewsPreferred | servers/search_server.py:225-226 | a non-empty news section is used |
| Search.NewsPublishedPrecedence | servers/search_server.py:235-236 | `published` is `age` if present, else `published`, else `""`; no profile gives an empty source |
| Search.NonObjectResultFails | servers/search_server.py:141-147 | a result that is not a dict makes the whole call fail with the raised error |
| Search.ResultsFileName | servers/search_server.py:121 | `search_`, at most 50 characters of the query with no spaces, then `.json` |
| Search.ResultsFileNameCut | servers/search_server.py:121 | replacing then cutting equals cutting then replacing; characters after the 50th do not matter |
| PyStr.StripIdempotent | app.py:89 | stripping twice is stripping once |
| PyStr.JoinSplit | app.py:66 | joining the pieces of a split by the same separator gives the text back |
| PyStr.SplitJoin | app.py:95 | splitting a join of separator-free pieces gives the pieces back |
| PyStr.ParseIntToString | main.py:215 | `int(str(n)) == n`, for integers without CPython's digit limit (see Left out) |
| PyStr.IsSpace | app.py:89 | the code points `str.isspace()` accepts |
| PyStr.Strip | app.py:89 | the result is stripped and is the input with its leading and trailing whitespace removed: only whitespace before it and after it; empty exactly for blank input |
| PyStr.StripBlankAround | app.py:89 | one blank on each side of a tidy text is all that strip removes |
| PyStr.AfterFirst | app.py:83 | the text after an occurrence of the pattern, and no earlier occurrence exists: the split is at the first one |
| PyStr.NotContainedAround | app.py:70 | a pattern not starting or ending with a blank or the frame characters occurs in a framed text only if it occurs in the text |
| PyStr.DeleteChars | app.py:87 | no character of the class remains, and a text without any is unchanged; what is kept is given by DeleteCharsKeepsOthers |
| PyStr.DeleteCharsKeepsOthers | app.py:87 | the class's characters are deleted and every other character is kept, with its count and in its order |
| PyStr.DeleteCharsConcat | app.py:87 | deleting characters works piece by piece |
| PyStr.Split | app.py:66 | at least one piece; no piece holds the separator; every character comes from the input |
| PyStr.AsciiLower | app.py:117 | the same length, each character lowered on its own |
| PyStr.ParseInt | main.py:215 | a parse needs a non-blank text holding only digits, underscores, signs and whitespace; a plain run of digits parses to its decimal value |
| PyStr.ForeignCharRejected | main.py:215 | a text holding any other character makes `int()` raise |
| PyStr.IntToString | app.py:56 | the spelling is digits with the value `n`, after a `-` for a negative `n` |

## Left out

- Streamlit UI, session state and image display: presentation through an external framework.
- Spawning processes, pipes, timeouts and kill-on-timeout: only their outcome is modelled, as `Display.ProcessOutcome` and `Commands.ExecResult`.
- LLM construction, CrewAI agents, tasks and crews, the MCP adapter and its transport: an LLM build is the predicate `Selection.Builds`, a server connection the predicate passed to `Selection.TestServersIndividually`, and a kickoff the function passed to `Selection.Kickoff`.
- The agent program's switch to fallback mode after kickoff fails, and what that mode runs: framework calls; only its default-topic rule is modelled.
- HTTP calls, JSON decoding and writing the results file: the reply is the input `Search.HttpOutcome`; only the file name is modelled.
- `servers/image_server.py`, `debug_summary.py` and `get_latest_images`: not part of this model.
- The npm check and `test_mcp_servers` in the setup helper: their only logic is to run a command and print its output.
- Filesystem probing and environment loading: `find_venv_python` takes `os.path.exists` as a predicate; the environment is a map.
- Logging and printed messages.
- Search.Tool: the text of an exception raised while shaping results is the input `raised`; the model does not derive it from the failing value.
- Search: JSON numbers are integers only. Floating-point values are not modelled, so the truthiness of `0.0` is not either.
- Setup.Accepts: `lower()` is ASCII-only (`PyStr.AsciiLower`). Python also lower-cases other scripts, but every accepted spelling and every end phrase is ASCII.
- Extractor.IsEndLine: uses ASCII-only `lower()`. The Kelvin sign (U+212A), which Python lower-cases to `k`, therefore does not complete `task completion`.
- Display.SgrLength: `\d` covers ASCII digits only; Python's regular expressions also accept other Unicode decimal digits.
- PyStr.ParseInt: base-10 ASCII digits with an optional sign, surrounding whitespace and single underscores between digits. Python's `int()` also accepts other Unicode digits. CPython 3.11 and later also raise `ValueError` for a text of more than 4300 digits (the default of `sys.set_int_max_str_digits`); the model has no such limit, so a `node --version` major of more than 4300 digits is compatible here but not in the program.
- PyStr.IntToString: CPython 3.11 and later raise `ValueError` when converting an integer of more than 4300 digits to text; the model spells every integer. Exit codes are far below this.
- PyStr.ForeignCharRejected: inherits the ASCII-digit restriction of `PyStr.ParseInt`; a text holding a non-ASCII Unicode digit is rejected here but may be accepted by Python.
- Search.Request: holds only the parameters that depend on the call (`q`, `count`, `freshness`, `result_filter`). The constant parameters `search_lang` (`en`), `country` (`US`), `safesearch` (`moderate`), `text_decorations` (false) and `spellcheck` (true) of servers/search_server.py:66-75 and :182-191 are not modelled, because they never vary and nothing is stated about them.
- PyStr.ParseIntToString: the round trip is stated for every integer; in CPython it holds only up to the 4300-digit limit above.
- Commands.ReleaseMajor: inherits the missing 4300-digit limit of `PyStr.ParseInt`.
- Selection.PythonServer: the `UV_PYTHON=3.12` environment passed to both Python servers is not modelled; the description holds only the name, the command and the arguments.
- Selection.SelectLlm: building the hard-coded fallback LLM is assumed not to raise.


=== FILE: commands.dfy ===
/**
 * Outcomes of the short external commands the application runs (`node --version`,
 * `npx --version`, `npm --version`) and the Node.js version gate that both the
 * agent program and the setup helper apply to `node --version`.
 */
module Commands {
  import opened Wrappers
  import opened PyStr
  import Seqs

  /**
   * What `subprocess.run(..., capture_output=True, text=True, timeout=10)` produced:
   * the process ran to completion, or the call raised (program missing, timeout).
   */
  datatype ExecResult =
    | Completed(code: int, stdout: string, stderr: string)
    | Raised

  /** Oldest Node.js major release the MCP servers support. */
  const MinNodeMajor: int := 18

  /** A command that ran and exited with status 0; raising counts as failure. */
  predicate CommandSucceeded(run: ExecResult)
  {
    run.Completed? && run.code == 0
  }

  /**
   * `int(version.lstrip('v').split('.')[0])` for `version = stdout.strip()`;
   * `None` where `int()` raises `ValueError`.
   */
  function MajorVersion(stdout: string): (r: Option<int>)
    ensures r.Some? ==> Split(LStripChar(Strip(stdout), 'v'), '.')[0] != []
  {
    ParseInt(Split(LStripChar(Strip(stdout), 'v'), '.')[0])
  }

  /**
   * `check_node_version` / `check_current_nodejs`: compatible exactly when the
   * command succeeded and its major version parses to at least 18.
   */
  function NodeCompatible(run: ExecResult): (ok: bool)
    ensures ok ==> CommandSucceeded(run)
    ensures ok <==> CommandSucceeded(run) && MajorVersion(run.stdout).Some?
                    && MajorVersion(run.stdout).value >= MinNodeMajor
  {
    if !CommandSucceeded(run) then false
    else match MajorVersion(run.stdout)
      case None => false
      case Some(major) => major >= MinNodeMajor
  }

  /** The first piece of a split is everything before the first separator. */
  lemma SplitHead(d: string, rest: string, sep: char)
    requires sep !in d
    ensures Split(d + [sep] + rest, sep)[0] == d
  {
    var s := d + [sep] + rest;
    assert s[..|d|] == d;
    FirstIndexAt(s, sep, |d|);
  }

  /** Digits contain no `.` and no `v`. */
  lemma DigitsFree(d: string)
    requires AllDigits(d)
    ensures '.' !in d && 'v' !in d
  {
  }

  /** The part before the first `.` of a text whose rest is empty or starts with `.`. */
  lemma DottedHead(d: string, tail: string)
    requires '.' !in d
    requires tail == [] || tail[0] == '.'
    ensures Split(d + tail, '.')[0] == d
  {
    if tail == [] {
      SplitWithoutSep(d, '.');
      assert d + tail == d;
    } else {
      Seqs.AppendCons(d, tail);
      SplitHead(d, tail[1..], '.');
    }
  }

  /** The version's major part as `int()` would read it, before the first `.`. */
  lemma MajorOfDotted(major: nat, tail: string)
    requires tail == [] || tail[0] == '.'
    ensures Split(NatToString(major) + tail, '.')[0] == NatToString(major)
  {
    var d := NatToString(major);
    DigitsFree(d);
    DottedHead(d, tail);
  }

  /** Leading `v`s in front of digits go, and the digits stay. */
  lemma VPrefixDropped(vs: nat, t: string)
    requires t != [] && t[0] != 'v'
    ensures LStripChar(Repeat('v', vs) + t, 'v') == t
  {
    var s := Repeat('v', vs) + t;
    var r := LStripChar(s, 'v');
    assert s[vs] == t[0];
    assert |r| == |t|;
    assert r == s[vs..];
    assert s[vs..] == t;
  }

  /**
   * A release spelled `v<major>` with any further `.`-separated parts, and any
   * number of leading `v`s, has that major version.
   */
  lemma ReleaseMajor(stdout: string, vs: nat, major: nat, tail: string)
    requires tail == [] || tail[0] == '.'
    requires Strip(stdout) == Repeat('v', vs) + NatToString(major) + tail
    ensures MajorVersion(stdout) == Some(major)
  {
    var d := NatToString(major);
    DigitsFree(d);
    Seqs.AppendAssoc(Repeat('v', vs), d, tail);
    VPrefixDropped(vs, d + tail);
    MajorOfDotted(major, tail);
    ParseNatToString(major);
  }

  /** On a successful run of `node --version`, the gate is the comparison of the major release with 18. */
  lemma NodeGateOnRelease(stdout: string, stderr: string, vs: nat, major: nat, tail: string)
    requires tail == [] || tail[0] == '.'
    requires Strip(stdout) == Repeat('v', vs) + NatToString(major) + tail
    ensures NodeCompatible(Completed(0, stdout, stderr)) <==> major >= MinNodeMajor
  {
    ReleaseMajor(stdout, vs, major, tail);
  }

  /** Output with no digits before the first `.` is incompatible: `int('')` raises. */
  lemma EmptyVersionIncompatible(stdout: string, stderr: string)
    requires Strip(stdout) == []
    ensures MajorVersion(stdout) == None
    ensures !NodeCompatible(Completed(0, stdout, stderr))
  {
    assert LStripChar([], 'v') == [];
    SplitWithoutSep([], '.');
    assert Strip([]) == [];
  }

  /**
   * A major part holding a character `int()` never accepts, such as a letter, makes
   * the parse raise, so even a successful run is incompatible.
   */
  lemma ForeignMajorIncompatible(stdout: string, stderr: string, k: nat)
    requires k < |Split(LStripChar(Strip(stdout), 'v'), '.')[0]|
    requires ForeignToInt(Split(LStripChar(Strip(stdout), 'v'), '.')[0][k])
    ensures MajorVersion(stdout) == None
    ensures !NodeCompatible(Completed(0, stdout, stderr))
  {
    ForeignCharRejected(Split(LStripChar(Strip(stdout), 'v'), '.')[0], k);
  }
}

=== FILE: display.dfy ===
/**
 * The front end's handling of one research run: choosing the interpreter, turning
 * the child process's outcome into a result or an error message, removing ANSI
 * colour sequences from the result, and naming the downloaded file.
 */
module Display {
  import opened Wrappers
  import opened PyStr
  import Seqs
  import Extractor

  const Esc: char := '\U{1b}'

  /** Characters the regular expression `[\d;]` accepts inside an SGR sequence. */
  predicate IsParamChar(c: char)
  {
    IsDigit(c) || c == ';'
  }

  /** Length of the longest prefix of `s` made of parameter characters. */
  function ParamRun(s: string): (k: nat)
    ensures k <= |s|
    ensures forall i :: 0 <= i < k ==> IsParamChar(s[i])
    ensures k < |s| ==> !IsParamChar(s[k])
  {
    if s != [] && IsParamChar(s[0]) then 1 + ParamRun(s[1..]) else 0
  }

  /**
   * Length of the match of `\x1b\[[\d;]*m` at the start of `s`, if there is one.
   * Giving back parameter characters cannot help the final `m` match, so the
   * greedy run decides the match.
   */
  function SgrLength(s: string): (r: Option<nat>)
    ensures r.Some? ==> 3 <= r.value <= |s|
  {
    if |s| >= 2 && s[0] == Esc && s[1] == '[' then
      var k := ParamRun(s[2..]);
      if 2 + k < |s| && s[2 + k] == 'm' then Some(3 + k) else None
    else None
  }

  /** An SGR sequence with the given parameters. */
  function Sgr(params: string): string
  {
    [Esc, '['] + params + ['m']
  }

  /**
   * `re.sub(r'\x1b\[[\d;]*m', '', s)`: scans from the left, deletes each match and
   * resumes after it; where nothing matches, one character is kept.
   */
  function StripAnsi(s: string): (r: string)
    ensures |r| <= |s|
    decreases |s|
  {
    if s == [] then []
    else match SgrLength(s)
      case Some(n) => StripAnsi(s[n..])
      case None => [s[0]] + StripAnsi(s[1..])
  }

  /** The result keeps characters of the input in their order: nothing is invented. */
  lemma {:induction false} StripAnsiIsSubsequence(s: string)
    ensures Seqs.IsSubsequence(StripAnsi(s), s)
    decreases |s|
  {
    if s != [] {
      match SgrLength(s)
      case Some(n) =>
        StripAnsiIsSubsequence(s[n..]);
        SubsequenceOfSuffix(StripAnsi(s[n..]), s, n);
      case None =>
        StripAnsiIsSubsequence(s[1..]);
        assert ([s[0]] + StripAnsi(s[1..]))[1..] == StripAnsi(s[1..]);
    }
  }

  lemma {:induction false} SubsequenceOfSuffix(sub: string, s: string, n: nat)
    requires n <= |s| && Seqs.IsSubsequence(sub, s[n..])
    ensures Seqs.IsSubsequence(sub, s)
    decreases n
  {
    if n > 0 {
      assert s[1..][n - 1..] == s[n..];
      SubsequenceOfSuffix(sub, s[1..], n - 1);
      Seqs.SubsequenceOfTail(sub, s);
    }
  }

  /** Text without an escape character passes through unchanged. */
  lemma {:induction false} PlainTextUnchanged(s: string)
    requires Esc !in s
    ensures StripAnsi(s) == s
    decreases |s|
  {
    if s != [] {
      KeepFirst(s);
      assert Esc !in s[1..];
      PlainTextUnchanged(s[1..]);
      assert s == [s[0]] + s[1..];
    }
  }

  /** A first character that starts no colour sequence is kept. */
  lemma KeepFirst(t: string)
    requires t != [] && (t[0] != Esc || SgrLength(t).None?)
    ensures StripAnsi(t) == [t[0]] + StripAnsi(t[1..])
  {
    assert SgrLength(t) == None;
  }

  /** Text without an escape character in front of anything is kept as it is. */
  lemma {:induction false} PlainPrefixKept(p: string, s: string)
    requires Esc !in p
    ensures StripAnsi(p + s) == p + StripAnsi(s)
    decreases |p|
  {
    if p != [] {
      var t := p + s;
      assert t[0] == p[0] && t[1..] == p[1..] + s;
      KeepFirst(t);
      assert Esc !in p[1..];
      PlainPrefixKept(p[1..], s);
      Seqs.ConsAppend(p, StripAnsi(s));
    } else {
      assert p + s == s;
    }
  }

  /** A complete colour sequence in front is deleted, whatever its parameters. */
  lemma SgrDeleted(params: string, s: string)
    requires forall i :: 0 <= i < |params| ==> IsParamChar(params[i])
    ensures StripAnsi(Sgr(params) + s) == StripAnsi(s)
  {
    var t := Sgr(params) + s;
    assert t[2..] == params + (['m'] + s);
    ParamRunOver(params, ['m'] + s);
    assert SgrLength(t) == Some(3 + |params|);
    assert t[3 + |params|..] == s;
  }

  lemma {:induction false} ParamRunOver(params: string, rest: string)
    requires forall i :: 0 <= i < |params| ==> IsParamChar(params[i])
    requires rest != [] && !IsParamChar(rest[0])
    ensures ParamRun(params + rest) == |params|
    decreases |params|
  {
    if params != [] {
      assert (params + rest)[1..] == params[1..] + rest;
      ParamRunOver(params[1..], rest);
    }
  }

  /** Colour codes wrapped around plain text disappear and leave the text. */
  lemma ColouredTextRecovered(code: string, text: string)
    requires forall i :: 0 <= i < |code| ==> IsParamChar(code[i])
    requires Esc !in text
    ensures StripAnsi(Sgr(code) + text + Sgr("0")) == text
  {
    assert Sgr(code) + text + Sgr("0") == Sgr(code) + (text + Sgr("0"));
    SgrDeleted(code, text + Sgr("0"));
    PlainPrefixKept(text, Sgr("0"));
    assert Sgr("0") == Sgr("0") + [];
    SgrDeleted("0", []);
  }

  /** An escape and bracket followed by another escape start no sequence and are kept. */
  lemma UnfinishedKept(s: string)
    requires |s| >= 3 && s[0] == Esc && s[1] == '[' && s[2] == Esc
    ensures StripAnsi(s) == [Esc, '['] + StripAnsi(s[2..])
  {
    var t := s[1..];
    assert t[0] == '[' && t[1..] == s[2..];
    KeepFirst(t);
    assert ParamRun(s[2..]) == 0;
    KeepFirst(s);
    Seqs.ConsCons(Esc, '[', StripAnsi(s[2..]));
  }

  /**
   * One pass does not always leave text free of colour sequences: a sequence
   * nested inside an unfinished one completes it once removed.
   */
  lemma OnePassNotIdempotent()
    ensures StripAnsi([Esc, '['] + Sgr("0") + "m") == Sgr("")
    ensures SgrLength(Sgr("")).Some?
  {
    var s := [Esc, '['] + Sgr("0") + "m";
    assert s[2..] == Sgr("0") + "m";
    UnfinishedKept(s);
    SgrDeleted("0", "m");
    PlainTextUnchanged("m");
    assert Sgr("") == [Esc, '['] + "m";
  }

  /** The download file name: `research_<topic>.txt`, spaces in the topic becoming `_`. */
  function DownloadName(topic: Option<string>): (r: string)
    ensures var t := topic.GetOr("topic");
      && |r| == |t| + 13
      && r[..9] == "research_" && r[|r| - 4..] == ".txt"
      && (forall i :: 9 <= i < |r| - 4 ==> r[i] != ' ')
      && (forall i :: 0 <= i < |t| ==> r[9 + i] == (if t[i] == ' ' then '_' else t[i]))
  {
    "research_" + ReplaceChar(topic.GetOr("topic"), ' ', '_') + ".txt"
  }

  /** Undoing the space replacement gives back a topic that had no underscore. */
  lemma DownloadNameNamesTopic(t: string)
    requires '_' !in t
    ensures var r := DownloadName(Some(t));
      ReplaceChar(r[9..|r| - 4], '_', ' ') == t
  {
    var r := DownloadName(Some(t));
    assert r[9..|r| - 4] == ReplaceChar(t, ' ', '_');
  }

  /** The four virtual-environment interpreters looked for, in order, under `dir`. */
  function VenvCandidates(dir: string, sep: string): (r: seq<string>)
    ensures |r| == 4
    ensures forall i :: 0 <= i < 4 ==> |r[i]| > |dir + sep| && r[i][..|dir + sep|] == dir + sep
  {
    [ dir + sep + ".venv" + sep + "Scripts" + sep + "python.exe",
      dir + sep + "venv" + sep + "Scripts" + sep + "python.exe",
      dir + sep + ".venv" + sep + "bin" + sep + "python",
      dir + sep + "venv" + sep + "bin" + sep + "python" ]
  }

  /** The first candidate that exists, else the running interpreter. */
  function FirstExisting(candidates: seq<string>, present: string -> bool, current: string): (r: string)
    ensures r in candidates || r == current
  {
    match Seqs.FirstWhere(candidates, present)
    case Some(i) => candidates[i]
    case None => current
  }

  /** `find_venv_python`, with the filesystem's `os.path.exists` and `sys.executable` as inputs. */
  function FindVenvPython(dir: string, sep: string, present: string -> bool, current: string): (r: string)
    ensures (exists i :: 0 <= i < 4 && present(VenvCandidates(dir, sep)[i])) ==>
      r in VenvCandidates(dir, sep) && present(r)
    ensures (forall i :: 0 <= i < 4 ==> !present(VenvCandidates(dir, sep)[i])) ==> r == current
  {
    var candidates := VenvCandidates(dir, sep);
    match Seqs.FirstWhere(candidates, present)
    case Some(i) =>
      FirstExistingIsFirst(candidates, present, current, i);
      FirstExisting(candidates, present, current)
    case None =>
      NoneExisting(candidates, present, current);
      FirstExisting(candidates, present, current)
  }

  /**
   * The choice is the earliest existing candidate; the running interpreter is
   * used exactly when no candidate exists.
   */
  lemma FirstExistingIsFirst(candidates: seq<string>, present: string -> bool, current: string, i: nat)
    requires i < |candidates| && present(candidates[i])
    requires forall j :: 0 <= j < i ==> !present(candidates[j])
    ensures FirstExisting(candidates, present, current) == candidates[i]
  {
    var f := Seqs.FirstWhere(candidates, present);
    assert f.Some?;
    assert f.value == i;
  }

  lemma NoneExisting(candidates: seq<string>, present: string -> bool, current: string)
    requires forall j :: 0 <= j < |candidates| ==> !present(candidates[j])
    ensures FirstExisting(candidates, present, current) == current
  {
    assert Seqs.FirstWhere(candidates, present).None?;
  }

  /** How the child process running the research ended. */
  datatype ProcessOutcome =
    | Exited(code: int, stdout: string, stderr: string)
    | TimedOut
    | Raised(message: string)

  /** `run_research`'s pair: the extracted result, or an error message. */
  datatype RunReply = RunReply(result: Option<string>, error: Option<string>)

  function RunResearch(outcome: ProcessOutcome): (r: RunReply)
    ensures r.result.Some? != r.error.Some?
    ensures r.result.Some? <==> outcome.Exited? && outcome.code == 0
    ensures r.result.Some? ==> r.result.value == Extractor.ExtractFinalResult(outcome.stdout)
  {
    match outcome
    case Exited(code, stdout, stderr) =>
      if code == 0 then RunReply(Some(Extractor.ExtractFinalResult(stdout)), None)
      else RunReply(None, Some("Error (return code " + IntToString(code) + "):\n" + stderr))
    case TimedOut => RunReply(None, Some("Research timed out after 5 minutes"))
    case Raised(message) => RunReply(None, Some("Unexpected error: " + message))
  }

  /** Cutting the known head and tail off a concatenation leaves its middle. */
  lemma SliceMiddle(a: string, b: string, c: string)
    ensures var e := a + b + c;
      && e[..|a|] == a && e[|a|..|e| - |c|] == b && e[|e| - |c|..] == c
  {
  }

  /** A failed exit reports its status code and then the whole error stream. */
  lemma FailedRunReportsCode(code: int, stdout: string, stderr: string)
    requires code != 0
    ensures var e := RunResearch(Exited(code, stdout, stderr)).error.value;
      var head := "Error (return code ";
      && e[..|head|] == head
      && ParseInt(e[|head|..|e| - |stderr| - 3]) == Some(code)
      && e[|e| - |stderr|..] == stderr
  {
    var head := "Error (return code ";
    var digits := IntToString(code);
    var tail := "):\n" + stderr;
    var e := RunResearch(Exited(code, stdout, stderr)).error.value;
    assert e == head + digits + tail;
    SliceMiddle(head, digits, tail);
    assert e[|e| - |stderr|..] == tail[3..];
    ParseIntToString(code);
  }
}

=== FILE: extractor.dfy ===
/**
 * The result extractor of the research front end: it turns the console transcript
 * of one agent run into a single answer text, trying three strategies in order
 * (marker, label, last substantial block) and falling back to a fixed sentence.
 */
module Extractor {
  import opened Wrappers
  import opened PyStr
  import Seqs

  /** The sentinel that introduces the final answer. */
  const Marker: string := "FINAL RESULT:"
  /** Fifty '=' characters, the rule printed around the sentinel. */
  const Rule: string := Repeat('=', 50)
  /** The rule immediately followed by the sentinel on the next line. */
  const RuleMarker: string := Rule + "\n" + Marker

  /** Box-drawing and shading characters deleted from captured lines. */
  const BoxChars: set<char> := {
    '╭', '│', '╰', '═', '─', '└', '├', '┤', '┬', '┴', '┼', '╔',
    '╗', '╚', '╝', '║', '╠', '╣', '╦', '╩', '╬', '▓', '▒', '░' }
  /** The characters deleted in the label strategy: box drawing plus four emoji. */
  const LabelDeleted: set<char> := BoxChars + {'🚀', '📋', '🔧', '✅'}

  const HeadingLabel: string := "## Final Answer"
  const ColonLabel: string := "Final Answer:"

  /** Phrases (matched against the lower-cased line) that end a labelled answer. */
  const EndPatterns: seq<string> := [
    "crew execution completed", "task completion", "crew completion",
    "└──", "assigned to:", "status:", "used" ]

  /** Substrings that mark a line as part of the framework's console chrome. */
  const UiMarkers: seq<string> := [
    "╭", "│", "╰", "🚀", "📋", "└──", "Assigned to:", "Status:" ]

  /** What the extractor says when no strategy finds any text. */
  const FallbackText: string :=
    "Research completed " + "successfully. Please check " + "the console output " + "for detailed results."

  /** `output.split('\n')`. */
  function Lines(output: string): seq<string>
  {
    Split(output, '\n')
  }

  /** `any(p in s for p in pats)`. */
  predicate ContainsAny(s: string, pats: seq<string>)
  {
    exists i :: 0 <= i < |pats| && Contains(s, pats[i])
  }

  predicate HasMarker(line: string)
  {
    Contains(line, Marker)
  }

  // ---------------------------------------------------------------------------
  // Strategy 1: everything from the marker on

  /**
   * Index of the line where the marker strategy starts. The loop's test also asks
   * whether the WHOLE output holds the rule followed by the marker, so in that case
   * it already succeeds on the first line.
   */
  function MarkerStart(output: string): (r: Option<nat>)
    ensures r.Some? ==> r.value < |Lines(output)|
    ensures Contains(output, RuleMarker) ==> r == Some(0)
    ensures !Contains(output, RuleMarker) && r.Some? ==>
      HasMarker(Lines(output)[r.value]) && forall j :: 0 <= j < r.value ==> !HasMarker(Lines(output)[j])
    ensures r.None? ==> forall j :: 0 <= j < |Lines(output)| ==> !HasMarker(Lines(output)[j])
  {
    if Contains(output, RuleMarker) then Some(0)
    else Seqs.FirstWhere(Lines(output), HasMarker)
  }

  /**
   * What one line contributes to the marker strategy: for a marker line, the stripped
   * text after the marker (no box cleaning); for any other line, the line without box
   * characters, stripped. Blank contributions are dropped.
   */
  function MarkerPiece(line: string): (r: Option<string>)
    ensures r.Some? ==> r.value != [] && Stripped(r.value)
  {
    if HasMarker(line) then
      var tail := Strip(AfterFirst(line, Marker));
      if tail != [] then Some(tail) else None
    else
      var cleaned := Strip(DeleteChars(line, BoxChars));
      if cleaned != [] then Some(cleaned) else None
  }

  /** A non-empty text with no whitespace at either end. */
  predicate Tidy(s: string)
  {
    s != [] && Stripped(s)
  }

  /** The pieces the marker strategy collects from `lines`, in order. */
  function MarkerPieces(lines: seq<string>): seq<string>
  {
    Seqs.FilterMap(lines, MarkerPiece)
  }

  /** Every collected piece is non-empty and stripped. */
  lemma MarkerPiecesTidy(lines: seq<string>)
    ensures forall i :: 0 <= i < |MarkerPieces(lines)| ==> Tidy(MarkerPieces(lines)[i])
  {
    Seqs.FilterMapImage(lines, MarkerPiece, Tidy);
  }

  /** Strategy 1 (app.py, first attempt). `None` when no line starts it or nothing is collected. */
  function MarkerStrategy(output: string): (r: Option<string>)
    ensures r.Some? ==> Tidy(r.value)
    ensures r.Some? ==> MarkerStart(output).Some?
  {
    match MarkerStart(output)
    case None => None
    case Some(k) =>
      var pieces := MarkerPieces(Lines(output)[k..]);
      if pieces != [] then
        MarkerPiecesTidy(Lines(output)[k..]);
        JoinOfStripped(pieces, "\n");
        Some(Strip(Join(pieces, "\n")))
      else None
  }

  /** A line the strategies pass through untouched: one line, stripped, no marker, no box character. */
  predicate PlainLine(l: string)
  {
    && Tidy(l) && '\n' !in l
    && !HasMarker(l)
    && forall i :: 0 <= i < |l| ==> l[i] !in BoxChars
  }

  lemma PlainPiece(l: string)
    requires PlainLine(l)
    ensures MarkerPiece(l) == Some(l)
  {
  }

  /** A line framed as `b t e`, with `b` and `e` deleted, cleans to `t`. */
  lemma DeleteFrame(b: char, t: string, e: char, cs: set<char>)
    requires b in cs && e in cs
    requires forall i :: 0 <= i < |t| ==> t[i] !in cs
    requires ' ' !in cs && Tidy(t)
    ensures Strip(DeleteChars([b] + " " + t + " " + [e], cs)) == t
  {
    var front, blank, tail := [b], " ", [e];
    assert DeleteChars(front, cs) == [] && DeleteChars(tail, cs) == [];
    assert DeleteChars(blank, cs) == blank;
    assert DeleteChars(t, cs) == t;
    DeleteCharsConcat(front, blank, cs);
    DeleteCharsConcat(front + blank, t, cs);
    DeleteCharsConcat(front + blank + t, blank, cs);
    DeleteCharsConcat(front + blank + t + blank, tail, cs);
    assert DeleteChars(front + blank + t + blank + tail, cs) == blank + t + blank;
    StripBlankAround(t);
  }

  /** A plain text between two box characters is what the marker strategy collects. */
  lemma BoxedMarkerPiece(b: char, t: string, e: char)
    requires b in BoxChars && e in BoxChars && PlainLine(t)
    ensures !HasMarker([b] + " " + t + " " + [e])
    ensures MarkerPiece([b] + " " + t + " " + [e]) == Some(t)
  {
    assert Marker[0] == 'F' && Marker[|Marker| - 1] == ':';
    NotContainedAround(b, t, e, Marker);
    DeleteFrame(b, t, e, BoxChars);
  }

  lemma MarkerPiecesOfPlain(xs: seq<string>)
    requires forall i :: 0 <= i < |xs| ==> PlainLine(xs[i])
    ensures MarkerPieces(xs) == xs
  {
    forall i | 0 <= i < |xs|
      ensures MarkerPiece(xs[i]) == Some(xs[i])
    {
      PlainPiece(xs[i]);
    }
    Seqs.FilterMapKeepsAll(xs, MarkerPiece);
  }

  /** A line that is exactly the marker is a marker line that contributes nothing. */
  lemma BareMarkerPiece()
    ensures HasMarker(Marker) && MarkerPiece(Marker) == None
  {
    assert OccursAt(Marker, Marker, 0);
    assert IndexOf(Marker, Marker) == Some(0);
  }

  /** The rule line is kept as it is: '=' is not a box character. */
  lemma RulePiece()
    ensures MarkerPiece(Rule) == Some(Rule)
  {
    RepeatedPlain(Rule, '=');
    PlainPiece(Rule);
  }

  /** A non-empty run of one ordinary character is a plain line. */
  lemma RepeatedPlain(s: string, c: char)
    requires s != [] && forall i :: 0 <= i < |s| ==> s[i] == c
    requires !IsSpace(c) && c != Marker[0] && c !in BoxChars
    ensures PlainLine(s)
  {
    assert Marker[0] !in s;
    MissingCharNotContained(s, Marker, 0);
  }

  /** No line of the list holds a newline. */
  predicate SingleLines(lines: seq<string>)
  {
    forall i :: 0 <= i < |lines| ==> '\n' !in lines[i]
  }

  /** Neither the marker nor the rule spans two lines. */
  lemma ConstantsAreSingleLines()
    ensures '\n' !in Marker && '\n' !in Rule
  {
  }

  lemma SingleLinesConcat(xs: seq<string>, ys: seq<string>)
    requires SingleLines(xs) && SingleLines(ys)
    ensures SingleLines(xs + ys)
  {
  }

  /** Splitting a newline-joined list of single lines gives the list back. */
  lemma LinesOfJoin(lines: seq<string>)
    requires lines != [] && SingleLines(lines)
    ensures Lines(Join(lines, "\n")) == lines
  {
    SplitJoin(lines, '\n');
  }

  /** Without the rule above a marker, the strategy starts at the first marker line. */
  lemma MarkerStartOnLines(lines: seq<string>, k: nat)
    requires lines != [] && SingleLines(lines)
    requires !Contains(Join(lines, "\n"), RuleMarker)
    requires k < |lines| && HasMarker(lines[k])
    requires forall j :: 0 <= j < k ==> !HasMarker(lines[j])
    ensures MarkerStart(Join(lines, "\n")) == Some(k)
  {
    LinesOfJoin(lines);
  }

  /** Once the start line is known, the answer is the join of the pieces collected from there. */
  lemma MarkerStrategyOnLines(lines: seq<string>, k: nat, pieces: seq<string>)
    requires lines != [] && SingleLines(lines)
    requires MarkerStart(Join(lines, "\n")) == Some(k)
    requires k <= |lines| && MarkerPieces(lines[k..]) == pieces && pieces != []
    ensures MarkerStrategy(Join(lines, "\n")) == Some(Join(pieces, "\n"))
  {
    LinesOfJoin(lines);
    MarkerPiecesTidy(lines[k..]);
    JoinOfStripped(pieces, "\n");
  }

  /** The lines in front, a marker line without a piece, then lines kept as they are. */
  lemma MarkerLineLayout(pre: seq<string>, m: string, body: seq<string>)
    requires forall i :: 0 <= i < |pre| ==> '\n' !in pre[i] && !HasMarker(pre[i])
    requires '\n' !in m && HasMarker(m) && MarkerPiece(m).None?
    requires SingleLines(body) && MarkerPieces(body) == body
    ensures var lines := pre + [m] + body;
      && SingleLines(lines) && |pre| < |lines| && HasMarker(lines[|pre|])
      && (forall j :: 0 <= j < |pre| ==> !HasMarker(lines[j]))
      && MarkerPieces(lines[|pre|..]) == body
  {
    SingleLinesConcat(pre, [m]);
    SingleLinesConcat(pre + [m], body);
    Seqs.DropBefore(pre, m, body);
    Seqs.FilterMapConcat([m], body, MarkerPiece);
    Seqs.FilterMapSingle(m, MarkerPiece);
  }

  /** Without the rule above it, the first marker line starts the capture and the rest follows. */
  lemma CaptureFromMarkerLine(pre: seq<string>, m: string, body: seq<string>)
    requires forall i :: 0 <= i < |pre| ==> '\n' !in pre[i] && !HasMarker(pre[i])
    requires '\n' !in m && HasMarker(m) && MarkerPiece(m).None?
    requires SingleLines(body) && body != [] && MarkerPieces(body) == body
    requires !Contains(Join(pre + [m] + body, "\n"), RuleMarker)
    ensures MarkerStrategy(Join(pre + [m] + body, "\n")) == Some(Join(body, "\n"))
  {
    var lines := pre + [m] + body;
    MarkerLineLayout(pre, m, body);
    MarkerStartOnLines(lines, |pre|);
    MarkerStrategyOnLines(lines, |pre|, body);
  }

  /**
   * A transcript whose marker stands on its own line, followed by plain lines, yields
   * exactly those lines joined by newlines (when the rule is not directly above the marker).
   */
  lemma MarkerBlockRecovered(pre: seq<string>, body: seq<string>)
    requires forall i :: 0 <= i < |pre| ==> '\n' !in pre[i] && !HasMarker(pre[i])
    requires body != [] && forall i :: 0 <= i < |body| ==> PlainLine(body[i])
    requires !Contains(Join(pre + [Marker] + body, "\n"), RuleMarker)
    ensures MarkerStrategy(Join(pre + [Marker] + body, "\n")) == Some(Join(body, "\n"))
  {
    ConstantsAreSingleLines();
    BareMarkerPiece();
    MarkerPiecesOfPlain(body);
    CaptureFromMarkerLine(pre, Marker, body);
  }

  /** The transcript made of `pre`, the rule, the marker and `body` holds the rule-then-marker text. */
  lemma RuleMarkerOccurs(pre: seq<string>, body: seq<string>)
    requires pre != [] && body != []
    ensures Contains(Join(pre + [Rule, Marker] + body, "\n"), RuleMarker)
  {
    JoinAround(pre, Rule, Marker, body, "\n");
    ContainsMiddle(Join(pre, "\n") + "\n", RuleMarker, "\n" + Join(body, "\n"));
  }

  /**
   * When the rule stands right above the marker, capture starts at the first line of
   * the transcript: the lines before the marker and the rule itself become part of
   * the answer.
   */
  lemma RuleMarkerCapturesPreamble(pre: seq<string>, body: seq<string>)
    requires pre != [] && forall i :: 0 <= i < |pre| ==> PlainLine(pre[i])
    requires body != [] && forall i :: 0 <= i < |body| ==> PlainLine(body[i])
    ensures MarkerStrategy(Join(pre + [Rule, Marker] + body, "\n"))
         == Some(Join(pre + [Rule] + body, "\n"))
  {
    var lines := pre + [Rule, Marker] + body;
    RuleMarkerOccurs(pre, body);
    assert SingleLines(lines) by {
      ConstantsAreSingleLines();
    }
    assert lines[0..] == lines;
    PreamblePieces(pre, body);
    MarkerStrategyOnLines(lines, 0, pre + [Rule] + body);
  }

  /** Every line but the bare marker is kept as it is. */
  lemma PreamblePieces(pre: seq<string>, body: seq<string>)
    requires forall i :: 0 <= i < |pre| ==> PlainLine(pre[i])
    requires forall i :: 0 <= i < |body| ==> PlainLine(body[i])
    ensures MarkerPieces(pre + [Rule, Marker] + body) == pre + [Rule] + body
  {
    MarkerPiecesOfPlain(pre);
    MarkerPiecesOfPlain(body);
    RulePiece();
    BareMarkerPiece();
    PiecesAroundDropped(pre, Rule, Marker, body);
  }

  /** Collecting across a dropped line between kept lines. */
  lemma PiecesAroundDropped(pre: seq<string>, keep: string, drop: string, body: seq<string>)
    requires MarkerPieces(pre) == pre && MarkerPieces(body) == body
    requires MarkerPiece(keep) == Some(keep) && MarkerPiece(drop) == None
    ensures MarkerPieces(pre + [keep, drop] + body) == pre + [keep] + body
  {
    Seqs.FilterMapAroundDropped(pre, keep, drop, body, MarkerPiece);
  }

  // ---------------------------------------------------------------------------
  // Strategy 2: the labelled section

  predicate IsLabelLine(line: string)
  {
    Contains(line, HeadingLabel) || Contains(line, ColonLabel)
  }

  /** The stripped text after "Final Answer:" on a label line, when it is not blank. */
  function LabelTail(line: string): (r: seq<string>)
    ensures |r| <= 1
    ensures r != [] ==> Contains(line, ColonLabel)
    ensures forall i :: 0 <= i < |r| ==> Tidy(r[i])
  {
    if Contains(line, ColonLabel) then
      var t := Strip(AfterFirst(line, ColonLabel));
      if t != [] then [t] else []
    else []
  }

  /** The line, lower-cased, contains one of the end phrases. */
  predicate IsEndLine(line: string)
  {
    ContainsAny(AsciiLower(line), EndPatterns)
  }

  /** A captured line with box characters and the four emoji deleted, then stripped. */
  function LabelClean(line: string): (r: string)
    ensures Stripped(r) && |r| <= |line|
    ensures forall i :: 0 <= i < |r| ==> r[i] !in LabelDeleted
    ensures (forall i :: 0 <= i < |line| ==> line[i] !in LabelDeleted) ==> r == Strip(line)
  {
    Strip(DeleteChars(line, LabelDeleted))
  }

  /** The loop of the second attempt; `capturing` is the loop's flag, an empty tail is the `break`. */
  function LabelLines(lines: seq<string>, capturing: bool): (r: seq<string>)
    ensures |r| <= |lines|
  {
    if lines == [] then []
    else if IsLabelLine(lines[0]) then LabelTail(lines[0]) + LabelLines(lines[1..], true)
    else if !capturing then LabelLines(lines[1..], false)
    else if IsEndLine(lines[0]) then []
    else
      var cleaned := LabelClean(lines[0]);
      (if |cleaned| > 10 then [cleaned] else []) + LabelLines(lines[1..], true)
  }

  predicate AllTidy(xs: seq<string>)
  {
    forall i :: 0 <= i < |xs| ==> Tidy(xs[i])
  }

  lemma TidyConcat(xs: seq<string>, ys: seq<string>)
    requires AllTidy(xs) && AllTidy(ys)
    ensures AllTidy(xs + ys)
  {
  }

  /** Every piece the loop collects is non-empty and stripped. */
  lemma {:induction false} LabelLinesTidy(lines: seq<string>, capturing: bool)
    ensures AllTidy(LabelLines(lines, capturing))
    decreases |lines|
  {
    if lines != [] {
      var rest := lines[1..];
      if IsLabelLine(lines[0]) {
        LabelLinesTidy(rest, true);
        TidyConcat(LabelTail(lines[0]), LabelLines(rest, true));
      } else if !capturing {
        LabelLinesTidy(rest, false);
      } else if !IsEndLine(lines[0]) {
        LabelLinesTidy(rest, true);
        var cleaned := LabelClean(lines[0]);
        TidyConcat(if |cleaned| > 10 then [cleaned] else [], LabelLines(rest, true));
      }
    }
  }

  /** Strategy 2 (app.py, second attempt). */
  function LabelStrategy(output: string): (r: Option<string>)
    ensures r.Some? ==> Tidy(r.value)
  {
    var pieces := LabelLines(Lines(output), false);
    LabelLinesTidy(Lines(output), false);
    if pieces != [] then
      JoinOfStripped(pieces, "\n");
      Some(Strip(Join(pieces, "\n")))
    else None
  }

  /** What one line inside the labelled window contributes. */
  function LabelPiece(line: string): (r: seq<string>)
    ensures forall i :: 0 <= i < |r| ==> Tidy(r[i])
  {
    if IsLabelLine(line) then LabelTail(line)
    else if |LabelClean(line)| > 10 then [LabelClean(line)]
    else []
  }

  /** A text longer than ten between two deleted characters is what a captured line adds. */
  lemma BoxedLabelPiece(b: char, t: string, e: char)
    requires b in LabelDeleted && e in LabelDeleted
    requires Tidy(t) && |t| > 10 && !IsLabelLine(t)
    requires forall i :: 0 <= i < |t| ==> t[i] !in LabelDeleted
    ensures !IsLabelLine([b] + " " + t + " " + [e])
    ensures LabelPiece([b] + " " + t + " " + [e]) == [t]
  {
    LabelDeletedExcludes();
    assert HeadingLabel[0] == '#' && HeadingLabel[|HeadingLabel| - 1] == 'r';
    NotContainedAround(b, t, e, HeadingLabel);
    assert ColonLabel[0] == 'F' && ColonLabel[|ColonLabel| - 1] == ':';
    NotContainedAround(b, t, e, ColonLabel);
    DeleteFrame(b, t, e, LabelDeleted);
  }

  /** The blank and the first and last characters of the labels are never deleted. */
  lemma LabelDeletedExcludes()
    ensures ' ' !in LabelDeleted && '#' !in LabelDeleted && 'r' !in LabelDeleted
    ensures 'F' !in LabelDeleted && ':' !in LabelDeleted
  {
  }

  /** `Final Answer:`, a blank, then a tidy text: the label line adds that text. */
  lemma LabelLineTail(t: string)
    requires Tidy(t)
    ensures IsLabelLine(ColonLabel + " " + t)
    ensures LabelTail(ColonLabel + " " + t) == [t]
  {
    assert ColonLabel + " " + t == ColonLabel + (" " + t);
    AfterLeading(ColonLabel, " " + t);
    StripBlankFront(' ', t);
  }

  /** A `## Final Answer` heading without a colon starts the capture but adds nothing itself. */
  lemma HeadingAddsNothing(line: string)
    requires Contains(line, HeadingLabel) && ':' !in line
    ensures IsLabelLine(line)
    ensures LabelTail(line) == [] && LabelPiece(line) == []
  {
    assert ColonLabel[12] == ':';
    MissingCharNotContained(line, ColonLabel, 12);
  }

  /** `Final Answer:` followed by text holds no marker when the text holds none. */
  lemma LabelLineNoMarker(t: string)
    requires !HasMarker(t)
    ensures !HasMarker(ColonLabel + " " + t)
  {
    var s := ColonLabel + " " + t;
    forall i: nat
      ensures !OccursAt(s, Marker, i)
    {
      if i < 14 {
        NoMarkerInLabelHead(t, i);
      } else if OccursAt(s, Marker, i) {
        assert t[i - 14..i - 14 + 13] == s[i..i + 13];
        OccursContains(t, Marker, i - 14);
      }
    }
  }

  /** The marker cannot start inside the leading `Final Answer: `. */
  lemma NoMarkerInLabelHead(t: string, i: nat)
    requires i < 14
    ensures !OccursAt(ColonLabel + " " + t, Marker, i)
  {
    var head := ColonLabel + " ";
    var s := head + t;
    assert |head| == 14 && head[1..] == "inal Answer: ";
    if i == 0 {
      assert s[1] == 'i' && Marker[1] == 'I';
      if |s| >= 13 {
        assert s[..13][1] == s[1];
      }
    } else {
      assert s[i] == head[1..][i - 1];
      if i + 13 <= |s| {
        assert s[i..i + 13][0] == s[i];
      }
    }
  }

  /** The one-line transcript `Final Answer: t`, with no marker in t, answers with t. */
  lemma LabelLineAnswer(t: string)
    requires Tidy(t) && '\n' !in t && !HasMarker(t)
    ensures MarkerStrategy(ColonLabel + " " + t).None?
    ensures LabelStrategy(ColonLabel + " " + t) == Some(t)
    ensures ExtractFinalResult(ColonLabel + " " + t) == t
  {
    var line := ColonLabel + " " + t;
    LabelLineIsOneLine(t);
    assert MarkerStart(line).None? by {
      assert RuleMarker[50] == '\n';
      MissingCharNotContained(line, RuleMarker, 50);
      LabelLineNoMarker(t);
    }
    assert LabelLines(Lines(line), false) == [t] by {
      LabelLineTail(t);
    }
  }

  /** `Final Answer:` followed by one line of text is one line. */
  lemma LabelLineIsOneLine(t: string)
    requires '\n' !in t
    ensures '\n' !in ColonLabel + " " + t
    ensures Lines(ColonLabel + " " + t) == [ColonLabel + " " + t]
  {
    var line := ColonLabel + " " + t;
    assert forall i :: 0 <= i < |line| ==> line[i] in ColonLabel + " " || line[i] in t;
    SplitWithoutSep(line, '\n');
  }

  /** The pieces of a window of lines, in order. */
  function LabelPieces(lines: seq<string>): seq<string>
  {
    Seqs.FlatMap(lines, LabelPiece)
  }

  /** A line that ends the capture: an end phrase on a line that is not itself a label line. */
  predicate StopsCapture(line: string)
  {
    !IsLabelLine(line) && IsEndLine(line)
  }

  /** Index of the first line that ends the capture, or the length when none does. */
  function StopIndex(lines: seq<string>): (e: nat)
    ensures e <= |lines|
  {
    Seqs.StopAt(lines, StopsCapture)
  }

  /** A line that does not end the capture contributes its piece and capture goes on. */
  lemma CapturingStep(lines: seq<string>)
    requires lines != [] && !StopsCapture(lines[0])
    ensures LabelLines(lines, true) == LabelPiece(lines[0]) + LabelLines(lines[1..], true)
  {
  }

  /** While capturing, the collected pieces are those of the lines before the first stopping line. */
  lemma {:induction false} CapturingWindow(lines: seq<string>)
    ensures LabelLines(lines, true) == LabelPieces(lines[..StopIndex(lines)])
    decreases |lines|
  {
    if lines != [] {
      var e := StopIndex(lines);
      if StopsCapture(lines[0]) {
        assert e == 0;
      } else {
        CapturingWindow(lines[1..]);
        CapturingStep(lines);
        Seqs.StopAtStep(lines, StopsCapture, LabelPiece);
      }
    }
  }

  /** Before capturing, a line that is not a label line is skipped. */
  lemma IdleStep(lines: seq<string>)
    requires lines != [] && !IsLabelLine(lines[0])
    ensures LabelLines(lines, false) == LabelLines(lines[1..], false)
  {
  }

  /** Before capturing, lines are skipped up to the first label line, where capture begins. */
  lemma {:induction false} IdleUntilLabel(lines: seq<string>)
    ensures Seqs.FirstWhere(lines, IsLabelLine).None? ==> LabelLines(lines, false) == []
    ensures Seqs.FirstWhere(lines, IsLabelLine).Some? ==>
      var k := Seqs.FirstWhere(lines, IsLabelLine).value;
      LabelLines(lines, false) == LabelTail(lines[k]) + LabelLines(lines[k + 1..], true)
    decreases |lines|
  {
    if lines != [] && !IsLabelLine(lines[0]) {
      var rest := lines[1..];
      IdleUntilLabel(rest);
      IdleStep(lines);
      match Seqs.FirstWhere(rest, IsLabelLine)
      case None =>
      case Some(j) =>
        Seqs.FirstWhereTail(lines, IsLabelLine, j);
        Seqs.TailShift(lines, j);
    }
  }

  /**
   * The label strategy's reference: from the first label line up to (not including) the
   * first later line that is not a label line and holds an end phrase, each label line
   * contributes its tail and each other line its cleaned form when longer than ten.
   */
  function LabelWindow(lines: seq<string>): seq<string>
  {
    Seqs.Window(lines, IsLabelLine, StopsCapture, LabelPiece)
  }

  /** The window reading of the label loop, for any list of lines. */
  lemma {:induction false} LabelLinesIsWindow(lines: seq<string>)
    ensures LabelLines(lines, false) == LabelWindow(lines)
  {
    IdleUntilLabel(lines);
    match Seqs.FirstWhere(lines, IsLabelLine)
    case None =>
    case Some(k) =>
      var rest := lines[k + 1..];
      CapturingWindow(rest);
      assert LabelPiece(lines[k]) == LabelTail(lines[k]);
      Seqs.WindowAt(lines, IsLabelLine, StopsCapture, LabelPiece, k);
  }

  lemma LabelStrategyIsWindow(output: string)
    ensures LabelStrategy(output).Some? <==> LabelWindow(Lines(output)) != []
    ensures LabelStrategy(output).Some? ==>
      LabelStrategy(output).value == Join(LabelWindow(Lines(output)), "\n")
  {
    LabelLinesIsWindow(Lines(output));
    LabelLinesTidy(Lines(output), false);
    var w := LabelWindow(Lines(output));
    if w != [] {
      JoinOfStripped(w, "\n");
    }
  }


  // ---------------------------------------------------------------------------
  // Strategy 3: the last block of long lines

  predicate IsUiLine(line: string)
  {
    ContainsAny(line, UiMarkers)
  }

  /** A line that extends a block: not console chrome, and longer than 30 once stripped. */
  predicate Substantial(line: string)
  {
    !IsUiLine(line) && |Strip(line)| > 30
  }

  /** The loop state of the third attempt: closed blocks and the block being built. */
  datatype BlockScan = BlockScan(blocks: seq<string>, current: seq<string>)

  /** Closes the block being built, if any (the loop's `elif current_block` and UI branches). */
  function CloseBlock(st: BlockScan): BlockScan
  {
    if st.current != [] then BlockScan(st.blocks + [Join(st.current, "\n")], []) else st
  }

  /** One iteration of the third attempt's loop. */
  function ScanStep(st: BlockScan, line: string): (r: BlockScan)
    ensures |st.blocks| <= |r.blocks| <= |st.blocks| + 1
    ensures r.current != [] <==> Substantial(line)
    ensures |r.blocks| + |r.current| <= |st.blocks| + |st.current| + 1
  {
    if IsUiLine(line) then CloseBlock(st)
    else
      var cleaned := Strip(line);
      if |cleaned| > 30 then BlockScan(st.blocks, st.current + [cleaned])
      else CloseBlock(st)
  }

  /** The loop run over `lines`, first line first. */
  function Scan(lines: seq<string>): (r: BlockScan)
    ensures |r.blocks| + |r.current| <= |lines|
  {
    if lines == [] then BlockScan([], [])
    else ScanStep(Scan(lines[..|lines| - 1]), lines[|lines| - 1])
  }

  /** All blocks, including the one still open when the loop ends. */
  function Blocks(lines: seq<string>): (r: seq<string>)
    ensures |r| <= |lines|
  {
    CloseBlock(Scan(lines)).blocks
  }

  /** Strategy 3 (app.py, third attempt). */
  function LastBlockStrategy(output: string): (r: Option<string>)
    ensures r.Some? ==> Tidy(r.value)
  {
    var b := Blocks(Lines(output));
    LastBlockIsLastRun(Lines(output));
    if b != [] then Some(Strip(b[|b| - 1])) else None
  }

  /** The block a run of substantial lines becomes: each line stripped, joined by newlines. */
  function RunText(run: seq<string>): string
  {
    Join(Seqs.Map(run, Strip), "\n")
  }

  /** What the loop keeps after any prefix of the transcript. */
  predicate ScanInvariant(lines: seq<string>, st: BlockScan)
  {
    && st.current == Seqs.Map(Seqs.TrailingRun(lines, Substantial), Strip)
    && (st.current == [] ==>
          (st.blocks != [] <==> Seqs.Any(lines, Substantial))
          && (st.blocks != [] ==> st.blocks[|st.blocks| - 1] == RunText(Seqs.LastRun(lines, Substantial))))
  }

  /** The step, read as: a substantial line extends the block, any other line closes it. */
  lemma StepBySubstantial(st: BlockScan, line: string)
    ensures ScanStep(st, line) ==
      if Substantial(line) then BlockScan(st.blocks, st.current + [Strip(line)]) else CloseBlock(st)
  {
  }

  lemma MapSnoc(xs: seq<string>, x: string)
    ensures Seqs.Map(xs + [x], Strip) == Seqs.Map(xs, Strip) + [Strip(x)]
  {
  }

  /** A substantial line extends the open block, which stays the trailing run. */
  lemma ExtendKeepsInvariant(p: seq<string>, l: string, st: BlockScan)
    requires ScanInvariant(p, st) && Substantial(l)
    ensures ScanInvariant(p + [l], ScanStep(st, l))
  {
    StepBySubstantial(st, l);
    Seqs.TrailingRunSnoc(p, l, Substantial);
    MapSnoc(Seqs.TrailingRun(p, Substantial), l);
  }

  /** Any other line closes the open block, which was the last run so far. */
  lemma CloseKeepsInvariant(p: seq<string>, l: string, st: BlockScan)
    requires ScanInvariant(p, st) && !Substantial(l)
    ensures ScanInvariant(p + [l], ScanStep(st, l))
  {
    StepBySubstantial(st, l);
    CloseStep(p + [l], p, l, st);
    ClosedInvariant(p, p + [l], st);
  }

  /** Closing the block after a line that ends every run restores the invariant. */
  lemma ClosedInvariant(p: seq<string>, q: seq<string>, st: BlockScan)
    requires ScanInvariant(p, st)
    requires Seqs.TrailingRun(q, Substantial) == []
    requires Seqs.LastRun(q, Substantial) == Seqs.LastRun(p, Substantial)
    requires Seqs.Any(q, Substantial) == Seqs.Any(p, Substantial)
    ensures ScanInvariant(q, CloseBlock(st))
  {
    if st.current != [] {
      CloseOpenBlock(p, st);
    }
  }

  /** After a line that is not substantial the trailing run is empty and the last run is unchanged. */
  lemma CloseStep(q: seq<string>, p: seq<string>, l: string, st: BlockScan)
    requires q == p + [l] && !Substantial(l)
    ensures Seqs.TrailingRun(q, Substantial) == []
    ensures Seqs.LastRun(q, Substantial) == Seqs.LastRun(p, Substantial)
    ensures Seqs.Any(q, Substantial) == Seqs.Any(p, Substantial)
  {
    Seqs.TrailingRunSnoc(p, l, Substantial);
    Seqs.LastRunSnoc(p, l, Substantial);
  }

  /** Closing a non-empty block appends the text of the last run. */
  lemma CloseOpenBlock(p: seq<string>, st: BlockScan)
    requires ScanInvariant(p, st) && st.current != []
    ensures Seqs.Any(p, Substantial)
    ensures CloseBlock(st).blocks[|CloseBlock(st).blocks| - 1] == RunText(Seqs.LastRun(p, Substantial))
  {
    assert Seqs.TrailingRun(p, Substantial) != [];
    Seqs.LastRunOfTrailing(p, Substantial);
  }

  lemma {:induction false} ScanKeepsInvariant(lines: seq<string>)
    ensures ScanInvariant(lines, Scan(lines))
    decreases |lines|
  {
    if lines != [] {
      var p := lines[..|lines| - 1];
      var l := lines[|lines| - 1];
      assert lines == p + [l];
      ScanKeepsInvariant(p);
      if Substantial(l) {
        ExtendKeepsInvariant(p, l, Scan(p));
      } else {
        CloseKeepsInvariant(p, l, Scan(p));
      }
    }
  }

  /** A non-empty run of substantial lines becomes a non-empty, stripped block. */
  lemma RunTextTidy(run: seq<string>)
    requires run != [] && forall i :: 0 <= i < |run| ==> Substantial(run[i])
    ensures Tidy(RunText(run))
  {
    var texts := Seqs.Map(run, Strip);
    assert forall i :: 0 <= i < |texts| ==> |texts[i]| > 30 && Stripped(texts[i]);
    JoinOfStripped(texts, "\n");
  }

  /**
   * The loop finds a block exactly when some line is substantial, and its last block is
   * the last maximal run of substantial lines, each stripped, joined by newlines.
   */
  lemma LastBlockIsLastRun(lines: seq<string>)
    ensures Blocks(lines) != [] <==> Seqs.Any(lines, Substantial)
    ensures Blocks(lines) != [] ==>
      Blocks(lines)[|Blocks(lines)| - 1] == RunText(Seqs.LastRun(lines, Substantial))
    ensures Blocks(lines) != [] ==> Tidy(RunText(Seqs.LastRun(lines, Substantial)))
  {
    ScanKeepsInvariant(lines);
    var st := Scan(lines);
    if st.current != [] {
      assert Seqs.TrailingRun(lines, Substantial) != [];
      Seqs.LastRunOfTrailing(lines, Substantial);
    }
    var run := Seqs.LastRun(lines, Substantial);
    if run != [] {
      RunTextTidy(run);
    }
  }

  /**
   * Strategy 3's answer: present exactly when some line is substantial, and then the
   * text of the last maximal run of substantial lines.
   */
  lemma LastBlockStrategyIsLastRun(output: string)
    ensures LastBlockStrategy(output).Some? <==> Seqs.Any(Lines(output), Substantial)
    ensures LastBlockStrategy(output).Some? ==>
      LastBlockStrategy(output).value == RunText(Seqs.LastRun(Lines(output), Substantial))
  {
    var lines := Lines(output);
    LastBlockIsLastRun(lines);
    LastBlockOfBlocks(output, Blocks(lines), RunText(Seqs.LastRun(lines, Substantial)));
  }

  /** Strategy 3 reads the last block, which is already stripped. */
  lemma LastBlockOfBlocks(output: string, b: seq<string>, t: string)
    requires b == Blocks(Lines(output))
    requires b != [] ==> b[|b| - 1] == t && Tidy(t)
    ensures LastBlockStrategy(output).Some? <==> b != []
    ensures b != [] ==> LastBlockStrategy(output).value == t
  {
    if b != [] {
      assert Strip(t) == t;
    }
  }

  // ---------------------------------------------------------------------------
  // The cascade

  /** The fallback sentence is itself a non-empty, stripped text. */
  lemma FallbackTidy()
    ensures Tidy(FallbackText)
  {
    assert FallbackText[0] == 'R' && FallbackText[|FallbackText| - 1] == '.';
  }

  /**
   * `extract_final_result`: the first strategy that finds text wins; when none does,
   * the fixed sentence. Total, never empty, never padded with whitespace.
   */
  function ExtractFinalResult(output: string): (r: string)
    ensures Tidy(r)
    ensures (MarkerStrategy(output).None? && LabelStrategy(output).None?
             && LastBlockStrategy(output).None?) ==> r == FallbackText
  {
    FallbackTidy();
    match MarkerStrategy(output)
    case Some(r) => r
    case None =>
      match LabelStrategy(output)
      case Some(r) => r
      case None =>
        match LastBlockStrategy(output)
        case Some(r) => r
        case None => FallbackText
  }

  /** When the marker strategy finds text, that text is the answer. */
  lemma MarkerWins(output: string)
    requires MarkerStrategy(output).Some?
    ensures ExtractFinalResult(output) == MarkerStrategy(output).value
  {
  }

  /** When the marker strategy collects nothing, the answer is what the later strategies give. */
  lemma MarkerFallsThrough(output: string)
    requires MarkerStrategy(output).None?
    ensures LabelStrategy(output).Some? ==> ExtractFinalResult(output) == LabelStrategy(output).value
    ensures LabelStrategy(output).None? && LastBlockStrategy(output).Some? ==>
      ExtractFinalResult(output) == LastBlockStrategy(output).value
  {
  }

  /** The label loop collects nothing from lines without a label. */
  lemma {:induction false} NoLabelNoPieces(lines: seq<string>)
    requires forall i :: 0 <= i < |lines| ==> !IsLabelLine(lines[i])
    ensures LabelLines(lines, false) == []
    decreases |lines|
  {
    if lines != [] {
      assert !IsLabelLine(lines[0]);
      assert forall i :: 0 <= i < |lines[1..]| ==> lines[1..][i] == lines[i + 1];
      NoLabelNoPieces(lines[1..]);
    }
  }

  /** A line of blanks has no marker, no label and is not substantial. */
  lemma BlankLineInert(l: string)
    requires forall i :: 0 <= i < |l| ==> IsSpace(l[i])
    ensures !HasMarker(l) && !IsLabelLine(l) && !Substantial(l)
  {
    assert Marker[0] == 'F';
    BlankLacks(l, Marker);
    assert HeadingLabel[0] == '#';
    BlankLacks(l, HeadingLabel);
    assert ColonLabel[0] == 'F';
    BlankLacks(l, ColonLabel);
    StripBlank(l);
  }

  /** An empty or blank transcript gives the fixed sentence. */
  lemma BlankTranscriptFallback(output: string)
    requires forall i :: 0 <= i < |output| ==> IsSpace(output[i])
    ensures ExtractFinalResult(output) == FallbackText
  {
    var lines := Lines(output);
    forall k | 0 <= k < |lines|
      ensures !HasMarker(lines[k]) && !IsLabelLine(lines[k]) && !Substantial(lines[k])
    {
      assert forall j :: 0 <= j < |lines[k]| ==> lines[k][j] in output;
      BlankLineInert(lines[k]);
    }
    assert Rule[0] == '=';
    assert RuleMarker[0] == '=';
    BlankLacks(output, RuleMarker);
    assert MarkerStart(output).None?;
    NoLabelNoPieces(lines);
    LastBlockIsLastRun(lines);
  }

  /** A transcript of one marker line answers with that line's piece. */
  lemma SingleMarkerLine(l: string, t: string)
    requires '\n' !in l && HasMarker(l) && MarkerPiece(l) == Some(t)
    ensures MarkerStrategy(l) == Some(t)
  {
    SplitWithoutSep(l, '\n');
    assert Lines(l)[0..] == [l];
    Seqs.FilterMapSingle(l, MarkerPiece);
    assert MarkerPieces([l]) == [t];
  }

  /** The marker, a blank, then a tidy text: the piece is that text. */
  lemma MarkerBlankPiece(t: string)
    requires Tidy(t)
    ensures HasMarker(Marker + " " + t)
    ensures MarkerPiece(Marker + " " + t) == Some(t)
  {
    assert Marker + " " + t == Marker + (" " + t);
    AfterLeading(Marker, " " + t);
    StripBlankFront(' ', t);
  }

  /** A single line holding the marker, a blank and a tidy one-line text answers with that text. */
  lemma MarkerLineAnswer(t: string)
    requires Tidy(t) && '\n' !in t
    ensures MarkerStrategy(Marker + " " + t) == Some(t)
    ensures ExtractFinalResult(Marker + " " + t) == t
  {
    var line := Marker + " " + t;
    ConstantsAreSingleLines();
    assert '\n' !in line;
    MarkerBlankPiece(t);
    SingleMarkerLine(line, t);
  }

  /**
   * The fixed sentence does not tell that every strategy failed: a transcript whose
   * marker line carries that same sentence makes the marker strategy return it.
   */
  lemma FallbackTextIsAmbiguous()
    ensures MarkerStrategy(Marker + " " + FallbackText).Some?
    ensures ExtractFinalResult(Marker + " " + FallbackText) == FallbackText
  {
    FallbackTidy();
    FallbackSingleLine();
    MarkerLineAnswer(FallbackText);
  }

  lemma FallbackSingleLine()
    ensures '\n' !in FallbackText
  {
  }
}

=== FILE: pystr.dfy ===
/**
 * The few Python `str` operations the application relies on, written out over
 * `seq<char>` (one `char` per Unicode code point, as a Python 3 `str`).
 */
module PyStr {
  import opened Wrappers
  import Seqs

  /** Python's `str.isspace()` for a single code point. */
  predicate IsSpace(c: char)
  {
    || c == ' '
    || ('\t' <= c <= '\r')
    || ('\U{1c}' <= c <= '\U{1f}')
    || c == '\U{85}' || c == '\U{a0}' || c == '\U{1680}'
    || ('\U{2000}' <= c <= '\U{200a}')
    || c == '\U{2028}' || c == '\U{2029}' || c == '\U{202f}' || c == '\U{205f}' || c == '\U{3000}'
  }

  /** No whitespace at either end: what `str.strip()` always returns. */
  predicate Stripped(s: string)
  {
    s == [] || (!IsSpace(s[0]) && !IsSpace(s[|s| - 1]))
  }

  /** Number of whitespace characters at the front of `s`. */
  function LeadingSpace(s: string): (k: nat)
    ensures k <= |s|
    ensures forall i :: 0 <= i < k ==> IsSpace(s[i])
    ensures k < |s| ==> !IsSpace(s[k])
  {
    if s != [] && IsSpace(s[0]) then 1 + LeadingSpace(s[1..]) else 0
  }

  /** Length of `s` without its trailing whitespace. */
  function TrailingStart(s: string): (k: nat)
    ensures k <= |s|
    ensures forall i :: k <= i < |s| ==> IsSpace(s[i])
    ensures k > 0 ==> !IsSpace(s[k - 1])
  {
    if s != [] && IsSpace(s[|s| - 1]) then TrailingStart(s[..|s| - 1]) else |s|
  }

  /** `str.lstrip()`: drops the leading whitespace and nothing else. */
  function LStrip(s: string): string
  {
    s[LeadingSpace(s)..]
  }

  /** `str.rstrip()`: drops the trailing whitespace and nothing else. */
  function RStrip(s: string): string
  {
    s[..TrailingStart(s)]
  }

  /** `str.strip()` with no argument. */
  function Strip(s: string): (r: string)
    ensures Stripped(r)
    ensures |r| <= |s|
    ensures Stripped(s) ==> r == s
    ensures r == [] <==> forall i :: 0 <= i < |s| ==> IsSpace(s[i])
    ensures LeadingSpace(s) + |r| <= |s| && r == s[LeadingSpace(s)..LeadingSpace(s) + |r|]
    ensures forall i :: LeadingSpace(s) + |r| <= i < |s| ==> IsSpace(s[i])
  {
    var l := LStrip(s);
    var r := RStrip(l);
    assert r != [] ==> r[0] == l[0];
    assert Stripped(s) ==> l == s;
    r
  }

  /** One blank in front of a stripped text is all `strip()` removes. */
  lemma StripBlankFront(c: char, t: string)
    requires IsSpace(c) && t != [] && Stripped(t)
    ensures Strip([c] + t) == t
  {
    var s := [c] + t;
    assert s[1..] == t;
    assert LeadingSpace(t) == 0;
    assert LeadingSpace(s) == 1;
    assert LStrip(s) == t;
    assert TrailingStart(t) == |t|;
  }

  /** A text of blanks strips to nothing. */
  lemma StripBlank(s: string)
    requires forall i :: 0 <= i < |s| ==> IsSpace(s[i])
    ensures Strip(s) == []
  {
    assert LeadingSpace(s) == |s|;
  }

  /** One blank on each side of a stripped text is all `strip()` removes. */
  lemma StripBlankAround(t: string)
    requires t != [] && Stripped(t)
    ensures Strip(" " + t + " ") == t
  {
    var s := " " + t + " ";
    var r := Strip(s);
    assert s[1..1 + |t|] == t;
    assert LeadingSpace(s) == 1 by {
      assert IsSpace(s[0]) && !IsSpace(s[1]);
      assert s[1..][0] == s[1];
      assert LeadingSpace(s[1..]) == 0;
    }
  }

  /** Stripping twice is stripping once. */
  lemma StripIdempotent(s: string)
    ensures Strip(Strip(s)) == Strip(s)
  {
  }

  /** `pat` occurs in `s` at position `i`. */
  predicate OccursAt(s: string, pat: string, i: nat)
  {
    i + |pat| <= |s| && s[i..i + |pat|] == pat
  }

  /** First position at or after `i` where `pat` occurs (`str.find` from `i`). */
  function IndexFrom(s: string, pat: string, i: nat): (r: Option<nat>)
    requires i <= |s|
    ensures r.Some? ==> i <= r.value && OccursAt(s, pat, r.value)
    ensures r.Some? ==> forall j :: i <= j < r.value ==> !OccursAt(s, pat, j)
    ensures r.None? ==> forall j :: i <= j ==> !OccursAt(s, pat, j)
    decreases |s| - i
  {
    if OccursAt(s, pat, i) then Some(i)
    else if i == |s| then None
    else IndexFrom(s, pat, i + 1)
  }

  /** First occurrence of `pat` in `s` (`str.find`, with `None` for -1). */
  function IndexOf(s: string, pat: string): (r: Option<nat>)
    ensures r.Some? ==> OccursAt(s, pat, r.value)
    ensures r.Some? ==> forall j :: 0 <= j < r.value ==> !OccursAt(s, pat, j)
    ensures r.None? ==> forall j :: 0 <= j ==> !OccursAt(s, pat, j)
  {
    IndexFrom(s, pat, 0)
  }

  /** Python's `pat in s` for strings. */
  predicate Contains(s: string, pat: string)
  {
    IndexOf(s, pat).Some?
  }

  /** An occurrence anywhere makes `pat in s` true. */
  lemma OccursContains(s: string, pat: string, i: nat)
    requires OccursAt(s, pat, i)
    ensures Contains(s, pat)
  {
  }

  /** A text built around `pat` contains it. */
  lemma ContainsMiddle(x: string, pat: string, y: string)
    ensures Contains(x + pat + y, pat)
  {
    assert (x + pat + y)[|x|..|x| + |pat|] == pat;
    OccursContains(x + pat + y, pat, |x|);
  }

  /** A text lacking some character of `pat` cannot contain `pat`. */
  lemma MissingCharNotContained(s: string, pat: string, k: nat)
    requires k < |pat| && pat[k] !in s
    ensures !Contains(s, pat)
  {
    forall i: nat
      ensures !OccursAt(s, pat, i)
    {
      if i + |pat| <= |s| {
        assert s[i..i + |pat|][k] == s[i + k];
      }
    }
  }

  /**
   * A pattern that neither starts with a blank or `b` nor ends with a blank or `e`
   * occurs in `[b] + " " + t + " " + [e]` only inside `t`.
   */
  lemma NotContainedAround(b: char, t: string, e: char, pat: string)
    requires pat != [] && pat[0] != ' ' && pat[0] != b
    requires pat[|pat| - 1] != ' ' && pat[|pat| - 1] != e
    requires !Contains(t, pat)
    ensures !Contains([b] + " " + t + " " + [e], pat)
  {
    var s := [b] + " " + t + " " + [e];
    forall i: nat
      ensures !OccursAt(s, pat, i)
    {
      if OccursAt(s, pat, i) {
        var n := |pat|;
        assert s[i..i + n][0] == s[i];
        assert s[i..i + n][n - 1] == s[i + n - 1];
        if i >= 2 && i + n <= 2 + |t| {
          assert t[i - 2..i - 2 + n] == s[i..i + n];
          OccursContains(t, pat, i - 2);
        }
      }
    }
  }

  /** A text of blanks contains no pattern that starts with a visible character. */
  lemma BlankLacks(s: string, pat: string)
    requires forall i :: 0 <= i < |s| ==> IsSpace(s[i])
    requires pat != [] && !IsSpace(pat[0])
    ensures !Contains(s, pat)
  {
    MissingCharNotContained(s, pat, 0);
  }

  /** `s.split(pat, 1)[1]`: the text after the first occurrence of `pat`. */
  function AfterFirst(s: string, pat: string): (r: string)
    requires Contains(s, pat)
    ensures |r| <= |s| - |pat|
    ensures exists i: nat :: OccursAt(s, pat, i) && r == s[i + |pat|..]
    ensures OccursAt(s, pat, |s| - |r| - |pat|) && r == s[|s| - |r|..]
    ensures forall j :: 0 <= j < |s| - |r| - |pat| ==> !OccursAt(s, pat, j)
  {
    var i := IndexOf(s, pat).value;
    s[i + |pat|..]
  }

  /** After a leading `pat`, the rest of the text follows. */
  lemma AfterLeading(pat: string, y: string)
    ensures Contains(pat + y, pat)
    ensures AfterFirst(pat + y, pat) == y
  {
    assert (pat + y)[0..|pat|] == pat;
    assert OccursAt(pat + y, pat, 0);
    OccursContains(pat + y, pat, 0);
  }

  /** Index of the first `c` in `s`. */
  function FirstIndexOfChar(s: string, c: char): (i: nat)
    requires c in s
    ensures i < |s| && s[i] == c && c !in s[..i]
  {
    if s[0] == c then 0
    else
      var k := FirstIndexOfChar(s[1..], c);
      assert s[..k + 1] == [s[0]] + s[1..][..k];
      k + 1
  }

  /** The first `c` in `s` is the one with no `c` before it. */
  lemma {:induction false} FirstIndexAt(s: string, c: char, k: nat)
    requires k < |s| && s[k] == c && c !in s[..k]
    ensures FirstIndexOfChar(s, c) == k
  {
    if k > 0 {
      assert s[0] == s[..k][0];
      assert s[1..][..k - 1] == s[..k][1..];
      FirstIndexAt(s[1..], c, k - 1);
    }
  }

  /** Python's `s.split(sep)` for a one-character separator: every `sep` cuts. */
  function Split(s: string, sep: char): (r: seq<string>)
    ensures |r| >= 1
    ensures forall i :: 0 <= i < |r| ==> sep !in r[i]
    ensures forall i, j :: 0 <= i < |r| && 0 <= j < |r[i]| ==> r[i][j] in s
    decreases |s|
  {
    if sep in s then
      var i := FirstIndexOfChar(s, sep);
      [s[..i]] + Split(s[i + 1..], sep)
    else [s]
  }

  /** Without the separator there is one piece, the whole text. */
  lemma SplitWithoutSep(s: string, sep: char)
    requires sep !in s
    ensures Split(s, sep) == [s]
  {
  }

  /** Python's `sep.join(xs)`. */
  function Join(xs: seq<string>, sep: string): string
  {
    if xs == [] then []
    else if |xs| == 1 then xs[0]
    else xs[0] + sep + Join(xs[1..], sep)
  }

  /** Joining two non-empty runs of pieces puts one separator between them. */
  lemma {:induction false} JoinConcat(xs: seq<string>, ys: seq<string>, sep: string)
    requires xs != [] && ys != []
    ensures Join(xs + ys, sep) == Join(xs, sep) + sep + Join(ys, sep)
    decreases |xs|
  {
    if |xs| > 1 {
      assert (xs + ys)[1..] == xs[1..] + ys;
      JoinConcat(xs[1..], ys, sep);
    } else {
      assert (xs + ys)[1..] == ys;
    }
  }

  /** Joining with two adjacent pieces in the middle: those two sit between separators. */
  lemma JoinAround(xs: seq<string>, a: string, b: string, ys: seq<string>, sep: string)
    requires xs != [] && ys != []
    ensures Join(xs + [a, b] + ys, sep) == (Join(xs, sep) + sep) + (a + sep + b) + (sep + Join(ys, sep))
  {
    assert xs + [a, b] + ys == xs + ([a] + ([b] + ys));
    JoinConcat(xs, [a] + ([b] + ys), sep);
    JoinCons(a, [b] + ys, sep);
    JoinCons(b, ys, sep);
    Seqs.Regroup(Join(xs, sep), sep, a, b, Join(ys, sep));
  }

  /** Joining the pieces of a split with the same separator gives back the text. */
  lemma {:induction false} JoinSplit(s: string, sep: char)
    ensures Join(Split(s, sep), [sep]) == s
    decreases |s|
  {
    if sep in s {
      var i := FirstIndexOfChar(s, sep);
      var head, tail := s[..i], s[i + 1..];
      var rest := Split(tail, sep);
      assert Split(s, sep) == [head] + rest;
      JoinSplit(tail, sep);
      JoinCons(head, rest, [sep]);
      assert s == head + [sep] + tail;
    } else {
      SplitWithoutSep(s, sep);
    }
  }

  /** Joining a piece in front of a non-empty run puts one separator after it. */
  lemma JoinCons(x: string, xs: seq<string>, sep: string)
    requires xs != []
    ensures Join([x] + xs, sep) == x + sep + Join(xs, sep)
  {
    assert ([x] + xs)[1..] == xs;
  }

  /** Splitting a join of separator-free pieces gives back the pieces. */
  lemma {:induction false} SplitJoin(xs: seq<string>, sep: char)
    requires |xs| >= 1
    requires forall i :: 0 <= i < |xs| ==> sep !in xs[i]
    ensures Split(Join(xs, [sep]), sep) == xs
    decreases |xs|
  {
    if |xs| > 1 {
      var s := Join(xs, [sep]);
      assert s == xs[0] + [sep] + Join(xs[1..], [sep]);
      assert s[|xs[0]|] == sep;
      assert s[..|xs[0]|] == xs[0];
      FirstIndexAt(s, sep, |xs[0]|);
      var i := |xs[0]|;
      assert s[i + 1..] == Join(xs[1..], [sep]);
      SplitJoin(xs[1..], sep);
    } else {
      assert sep !in xs[0];
    }
  }

  /** A join of non-empty stripped pieces starts and ends with its outer pieces' characters. */
  lemma {:induction false} JoinOfStripped(xs: seq<string>, sep: string)
    requires |xs| >= 1
    requires forall i :: 0 <= i < |xs| ==> xs[i] != [] && Stripped(xs[i])
    ensures Join(xs, sep) != []
    ensures Join(xs, sep)[0] == xs[0][0]
    ensures Join(xs, sep)[|Join(xs, sep)| - 1] == xs[|xs| - 1][|xs[|xs| - 1]| - 1]
    ensures Stripped(Join(xs, sep))
    decreases |xs|
  {
    if |xs| > 1 {
      JoinOfStripped(xs[1..], sep);
    }
  }

  /** `re.sub('[...]', '', s)` for a character class `cs`: deletes every member of `cs`. */
  function DeleteChars(s: string, cs: set<char>): (r: string)
    ensures |r| <= |s|
    ensures forall i :: 0 <= i < |r| ==> r[i] !in cs
    ensures (forall i :: 0 <= i < |s| ==> s[i] !in cs) ==> r == s
  {
    if s == [] then []
    else if s[0] in cs then DeleteChars(s[1..], cs)
    else [s[0]] + DeleteChars(s[1..], cs)
  }

  /**
   * What the deletion keeps: no member of `cs`, every other character as often as
   * in `s`, and in the order of `s`.
   */
  lemma {:induction false} DeleteCharsKeepsOthers(s: string, cs: set<char>)
    ensures forall c :: multiset(DeleteChars(s, cs))[c] == if c in cs then 0 else multiset(s)[c]
    ensures Seqs.IsSubsequence(DeleteChars(s, cs), s)
    decreases |s|
  {
    if s != [] {
      assert s == [s[0]] + s[1..];
      var rest := DeleteChars(s[1..], cs);
      DeleteCharsKeepsOthers(s[1..], cs);
      if s[0] in cs {
        Seqs.SubsequenceOfTail(rest, s);
      } else {
        var r := [s[0]] + rest;
        assert r[1..] == rest;
      }
    }
  }

  /** Deleting characters works piece by piece. */
  lemma {:induction false} DeleteCharsConcat(x: string, y: string, cs: set<char>)
    ensures DeleteChars(x + y, cs) == DeleteChars(x, cs) + DeleteChars(y, cs)
    decreases |x|
  {
    if x != [] {
      var xy := x + y;
      assert xy[0] == x[0];
      assert xy[1..] == x[1..] + y;
      DeleteCharsConcat(x[1..], y, cs);
    } else {
      assert x + y == y;
    }
  }

  /** `s.replace(a, b)` for one-character `a` and `b`. */
  function ReplaceChar(s: string, a: char, b: char): (r: string)
    ensures |r| == |s|
    ensures forall i :: 0 <= i < |s| ==> r[i] == (if s[i] == a then b else s[i])
  {
    if s == [] then [] else [if s[0] == a then b else s[0]] + ReplaceChar(s[1..], a, b)
  }

  /** `str.lower()` restricted to the ASCII letters A-Z. */
  function LowerChar(c: char): char
  {
    if 'A' <= c <= 'Z' then (c as int + 32) as char else c
  }

  /** `str.lower()` restricted to the ASCII letters A-Z. */
  function AsciiLower(s: string): (r: string)
    ensures |r| == |s|
    ensures forall i :: 0 <= i < |s| ==> r[i] == LowerChar(s[i])
  {
    if s == [] then [] else [LowerChar(s[0])] + AsciiLower(s[1..])
  }

  /** `s.lstrip(c)` for one character `c`: drops every leading `c`. */
  function LStripChar(s: string, c: char): (r: string)
    ensures |r| <= |s| && r == s[|s| - |r|..]
    ensures forall i :: 0 <= i < |s| - |r| ==> s[i] == c
    ensures r == [] || r[0] != c
    decreases |s|
  {
    if s != [] && s[0] == c then LStripChar(s[1..], c) else s
  }

  /** Python's `c * n` for a one-character string `c`. */
  function Repeat(c: char, n: nat): (r: string)
    ensures |r| == n
    ensures forall i :: 0 <= i < n ==> r[i] == c
  {
    if n == 0 then [] else [c] + Repeat(c, n - 1)
  }

  predicate IsDigit(c: char)
  {
    '0' <= c <= '9'
  }

  function DigitValue(c: char): nat
    requires IsDigit(c)
  {
    c as int - '0' as int
  }

  function DigitChar(d: nat): (c: char)
    requires d < 10
    ensures IsDigit(c) && DigitValue(c) == d
  {
    ('0' as int + d) as char
  }

  predicate AllDigits(s: string)
  {
    forall i :: 0 <= i < |s| ==> IsDigit(s[i])
  }

  /** Digits and underscores only. */
  predicate DigitChars(s: string)
  {
    forall i :: 0 <= i < |s| ==> IsDigit(s[i]) || s[i] == '_'
  }

  /** Decimal value of a digit string, most significant digit first; underscores add nothing. */
  function DigitsValue(ds: string): nat
    requires DigitChars(ds)
  {
    if ds == [] then 0
    else if ds[|ds| - 1] == '_' then DigitsValue(ds[..|ds| - 1])
    else DigitsValue(ds[..|ds| - 1]) * 10 + DigitValue(ds[|ds| - 1])
  }

  /**
   * The digit part accepted by Python's `int(s)` in base 10: digits, with single
   * underscores allowed between two digits.
   */
  predicate DigitGroup(s: string)
  {
    && |s| > 0
    && IsDigit(s[0]) && IsDigit(s[|s| - 1])
    && DigitChars(s)
    && (forall i :: 0 <= i < |s| - 1 ==> s[i] == '_' ==> s[i + 1] != '_')
  }

  /** A character `int()` never accepts: not a digit, underscore, sign or whitespace. */
  predicate ForeignToInt(c: char)
  {
    !IsDigit(c) && c != '_' && c != '+' && c != '-' && !IsSpace(c)
  }

  /**
   * Python's `int(s)`: surrounding whitespace, an optional sign, then a digit group;
   * anything else raises `ValueError`, modelled as `None`.
   */
  function ParseInt(s: string): (r: Option<int>)
    ensures r.Some? ==> Strip(s) != []
    ensures |s| >= 1 && AllDigits(s) ==> r == Some(DigitsValue(s))
  {
    var t := Strip(s);
    if |s| >= 1 && AllDigits(s) then
      assert Stripped(s);
      DigitsAreGroup(s);
      ParseStripped(t)
    else ParseStripped(t)
  }

  /** Every character of a text is whitespace or a character of its stripped form. */
  lemma StripKeepsOnlyBlanks(s: string)
    ensures forall i :: 0 <= i < |s| ==> IsSpace(s[i]) || s[i] in Strip(s)
  {
    var l, r := LeadingSpace(s), Strip(s);
    forall i | l <= i < l + |r|
      ensures s[i] in r
    {
      assert s[i] == r[i - l];
    }
  }

  /** `int()` once the surrounding whitespace is gone: an optional sign, then a digit group. */
  function ParseStripped(t: string): (r: Option<int>)
    ensures r.Some? ==> t != []
    ensures r.Some? ==> forall c :: c in t ==> !ForeignToInt(c)
  {
    if t != [] && (t[0] == '-' || t[0] == '+') then
      if DigitGroup(t[1..]) then
        var v: int := DigitsValue(t[1..]);
        Some(if t[0] == '-' then -v else v)
      else None
    else if DigitGroup(t) then Some(DigitsValue(t))
    else None
  }

  /** A text holding a character `int()` never accepts does not parse. */
  lemma ForeignCharRejected(s: string, k: nat)
    requires k < |s| && ForeignToInt(s[k])
    ensures ParseInt(s) == None
  {
    StripKeepsOnlyBlanks(s);
  }

  /** Decimal spelling of a natural number, as `str(n)`. */
  function NatToString(n: nat): (r: string)
    ensures |r| >= 1 && AllDigits(r)
    ensures DigitsValue(r) == n
  {
    if n < 10 then [DigitChar(n)]
    else
      var r := NatToString(n / 10) + [DigitChar(n % 10)];
      assert r[..|r| - 1] == NatToString(n / 10);
      r
  }

  /** Decimal spelling of an integer, as `str(n)`. */
  function IntToString(n: int): (r: string)
    ensures n >= 0 ==> |r| >= 1 && AllDigits(r) && DigitsValue(r) == n
    ensures n < 0 ==> |r| >= 2 && r[0] == '-' && AllDigits(r[1..]) && DigitsValue(r[1..]) == -n
  {
    if n < 0 then "-" + NatToString(-n) else NatToString(n)
  }

  /** A string of digits is a digit group. */
  lemma DigitsAreGroup(d: string)
    requires |d| >= 1 && AllDigits(d)
    ensures DigitGroup(d)
  {
  }

  /** Whatever is already stripped parses as it stands. */
  lemma ParseOfStripped(t: string)
    requires Stripped(t)
    ensures ParseInt(t) == ParseStripped(t)
  {
  }

  /** An unsigned spelling parses to its value. */
  lemma ParseUnsigned(d: string, v: nat)
    requires |d| >= 1 && AllDigits(d) && DigitsValue(d) == v
    ensures ParseInt(d) == Some(v)
  {
    DigitsAreGroup(d);
    ParseOfStripped(d);
  }

  /** A minus sign in front of a digit group parses to the negated value. */
  lemma ParseStrippedMinus(t: string, d: string, v: nat)
    requires t == "-" + d && DigitGroup(d) && DigitsValue(d) == v
    ensures ParseStripped(t) == Some(-(v as int))
  {
    assert t[1..] == d;
  }

  /** A minus sign in front of digits parses to the negated value. */
  lemma ParseNegative(d: string, v: nat)
    requires |d| >= 1 && AllDigits(d) && DigitsValue(d) == v
    ensures ParseInt("-" + d) == Some(-(v as int))
  {
    var t := "-" + d;
    assert Stripped(t) by {
      assert t[0] == '-' && t[|t| - 1] == d[|d| - 1];
    }
    DigitsAreGroup(d);
    ParseOfStripped(t);
    ParseStrippedMinus(t, d, v);
  }

  /** A natural number's spelling parses back to it. */
  lemma ParseNatToString(n: nat)
    ensures ParseInt(NatToString(n)) == Some(n)
  {
    ParseUnsigned(NatToString(n), n);
  }

  /** A minus sign in front of a natural number's spelling parses to its negation. */
  lemma ParseMinusNatToString(n: nat)
    ensures ParseInt("-" + NatToString(n)) == Some(-(n as int))
  {
    ParseNegative(NatToString(n), n);
  }

  /** `int(str(n)) == n`: parsing the decimal spelling of an integer gives it back. */
  lemma ParseIntToString(n: int)
    ensures ParseInt(IntToString(n)) == Some(n)
  {
    var spelled := IntToString(n);
    if n >= 0 {
      assert spelled == NatToString(n);
      ParseNatToString(n);
    } else {
      var m: nat := -n;
      assert spelled == "-" + NatToString(m);
      ParseMinusNatToString(m);
    }
  }
}

=== FILE: search.dfy ===
/**
 * The search server's two tools, `brave_search` and `search_news`: the request they
 * send, and how they shape the decoded answer of the search API into the reply
 * the agent sees. The HTTP exchange itself is an input.
 */
module Search {
  import opened Wrappers
  import opened PyStr
  import Seqs

  /** A decoded JSON value; numbers are integers here. */
  datatype Json =
    | JNull
    | JBool(b: bool)
    | JInt(n: int)
    | JStr(s: string)
    | JArr(items: seq<Json>)
    | JObj(fields: map<string, Json>)

  const EmptyStr: Json := JStr("")
  const EmptyObj: Json := JObj(map[])

  /** Python truthiness of a decoded value. */
  predicate Truthy(v: Json)
  {
    match v
    case JNull => false
    case JBool(b) => b
    case JInt(n) => n != 0
    case JStr(s) => s != []
    case JArr(xs) => xs != []
    case JObj(m) => |m| > 0
  }

  /** `v.get(key, default)`; `None` where `v` is not a dict and the call raises `AttributeError`. */
  function Get(v: Json, key: string, default: Json): (r: Option<Json>)
    ensures r.Some? <==> v.JObj?
    ensures r.Some? ==> r.value == (if key in v.fields then v.fields[key] else default)
  {
    match v
    case JObj(m) => Some(if key in m then m[key] else default)
    case _ => None
  }

  /**
   * The values a `for` loop over `v` hands to `.get`: the elements of a list. An
   * empty string or dict gives no iteration; any other value makes the loop raise
   * (a string or dict yields strings, which have no `.get`; the rest is not iterable).
   */
  function Items(v: Json): (r: Option<seq<Json>>)
    ensures v.JArr? ==> r == Some(v.items)
  {
    match v
    case JArr(xs) => Some(xs)
    case JStr(s) => if s == [] then Some([]) else None
    case JObj(m) => if |m| == 0 then Some([]) else None
    case _ => None
  }

  /** `d.get(outer, {}).get("results", [])`. */
  function Section(data: Json, outer: string): (r: Option<Json>)
    ensures r.Some? <==> data.JObj? && (outer !in data.fields || data.fields[outer].JObj?)
  {
    match Get(data, outer, EmptyObj)
    case None => None
    case Some(section) => Get(section, "results", JArr([]))
  }

  /** One web result as the tool reports it; each field is whatever the API sent, `""` if absent. */
  datatype WebRecord = WebRecord(title: Json, url: Json, description: Json, published: Json, thumbnail: Json)

  /** One news result: as a web result, with the publishing source. */
  datatype NewsRecord = NewsRecord(
    title: Json, url: Json, description: Json, published: Json, source: Json, thumbnail: Json)

  /** `d.get(key, "")` on a result dict. */
  function Field(m: map<string, Json>, key: string): Json
  {
    if key in m then m[key] else EmptyStr
  }

  /** Reading `r.get(key, {}).get(...)` raises only when `r[key]` is truthy and not a dict. */
  predicate NestedReadable(m: map<string, Json>, key: string)
  {
    key !in m || !Truthy(m[key]) || m[key].JObj?
  }

  /** The value the nested read gives when it does not raise: the inner field of a truthy dict, else `""`. */
  function NestedValue(m: map<string, Json>, key: string, inner: string): Json
  {
    if key in m && Truthy(m[key]) && m[key].JObj? then Field(m[key].fields, inner) else EmptyStr
  }

  /** `r.get(key, {}).get(inner, "") if r.get(key) else ""`. */
  function Nested(result: Json, key: string, inner: string): (r: Option<Json>)
    requires result.JObj?
    ensures r.Some? <==> NestedReadable(result.fields, key)
    ensures r.Some? ==> r.value == NestedValue(result.fields, key, inner)
  {
    var v := Get(result, key, JNull).value;
    if Truthy(v) then Get(v, inner, EmptyStr) else Some(EmptyStr)
  }

  /** The record made from one web result; `None` where building it raises. */
  function WebRecordOf(result: Json): (r: Option<WebRecord>)
    ensures r.Some? <==> result.JObj? && NestedReadable(result.fields, "thumbnail")
    ensures r.Some? ==> r.value.title == Field(result.fields, "title")
    ensures r.Some? ==> r.value.url == Field(result.fields, "url")
    ensures r.Some? ==> r.value.description == Field(result.fields, "description")
    ensures r.Some? ==> r.value.published == Field(result.fields, "published")
    ensures r.Some? ==> r.value.thumbnail == NestedValue(result.fields, "thumbnail", "src")
  {
    if !result.JObj? then None
    else
      match Nested(result, "thumbnail", "src")
      case None => None
      case Some(thumb) =>
        Some(WebRecord(
          Get(result, "title", EmptyStr).value,
          Get(result, "url", EmptyStr).value,
          Get(result, "description", EmptyStr).value,
          Get(result, "published", EmptyStr).value,
          thumb))
  }

  /** `r.get("age", r.get("published", ""))`: the age when present, else the published date, else `""`. */
  function AgeOrPublished(m: map<string, Json>): Json
  {
    if "age" in m then m["age"] else Field(m, "published")
  }

  /** The record made from one news result; `published` prefers `age`. */
  function NewsRecordOf(result: Json): (r: Option<NewsRecord>)
    ensures r.Some? <==> result.JObj? && NestedReadable(result.fields, "profile")
                         && NestedReadable(result.fields, "thumbnail")
    ensures r.Some? ==> r.value.title == Field(result.fields, "title")
    ensures r.Some? ==> r.value.url == Field(result.fields, "url")
    ensures r.Some? ==> r.value.description == Field(result.fields, "description")
    ensures r.Some? ==> r.value.published == AgeOrPublished(result.fields)
    ensures r.Some? ==> r.value.source == NestedValue(result.fields, "profile", "name")
    ensures r.Some? ==> r.value.thumbnail == NestedValue(result.fields, "thumbnail", "src")
  {
    if !result.JObj? then None
    else
      match (Nested(result, "profile", "name"), Nested(result, "thumbnail", "src"))
      case (Some(source), Some(thumb)) =>
        Some(NewsRecord(
          Get(result, "title", EmptyStr).value,
          Get(result, "url", EmptyStr).value,
          Get(result, "description", EmptyStr).value,
          Get(result, "age", Get(result, "published", EmptyStr).value).value,
          source,
          thumb))
      case _ => None
  }

  /** `data[outer]["results"]` is the list `xs`. */
  predicate ListedUnder(data: Json, outer: string, xs: seq<Json>)
  {
    && data.JObj? && outer in data.fields && data.fields[outer].JObj?
    && "results" in data.fields[outer].fields && data.fields[outer].fields["results"] == JArr(xs)
  }

  /** `data.get("web", {}).get("results", [])`, iterated. */
  function WebItems(data: Json): (r: Option<seq<Json>>)
    ensures !data.JObj? ==> r.None?
    ensures data.JObj? && "web" !in data.fields ==> r == Some([])
    ensures forall xs :: ListedUnder(data, "web", xs) ==> r == Some(xs)
  {
    match Section(data, "web")
    case None => None
    case Some(v) => Items(v)
  }

  /** The news results, or the web results when the news section is missing or empty. */
  function NewsItems(data: Json): (r: Option<seq<Json>>)
    ensures !data.JObj? ==> r.None?
    ensures data.JObj? && "news" !in data.fields ==> r == WebItems(data)
    ensures forall xs :: ListedUnder(data, "news", xs) && xs != [] ==> r == Some(xs)
    ensures ListedUnder(data, "news", []) ==> r == WebItems(data)
  {
    match Section(data, "news")
    case None => None
    case Some(v) => if Truthy(v) then Items(v) else WebItems(data)
  }

  /** The query parameters the tools send; `count` already clamped. */
  datatype Request = Request(q: string, count: int, freshness: string, resultFilter: Option<string>)

  /** `max(1, min(count, 20))`. */
  function ClampCount(count: int): (r: int)
    ensures 1 <= r <= 20
    ensures 1 <= count <= 20 ==> r == count
    ensures count < 1 ==> r == 1
    ensures count > 20 ==> r == 20
  {
    if count > 20 then 20 else if count < 1 then 1 else count
  }

  /** Clamping is monotone, and clamping twice is clamping once. */
  lemma ClampMonotone(a: int, b: int)
    requires a <= b
    ensures ClampCount(a) <= ClampCount(b)
    ensures ClampCount(ClampCount(a)) == ClampCount(a)
  {
  }

  /** The web search parameters: the query, the clamped count, results from the past week, no filter. */
  function WebRequest(query: string, count: int): (r: Request)
    ensures 1 <= r.count <= 20 && r.q == query && r.resultFilter.None?
    ensures r.count == ClampCount(count) && r.freshness == "pw"
  {
    Request(query, ClampCount(count), "pw", None)
  }

  /** The news search parameters: the query, the clamped count, results from the past day, news only. */
  function NewsRequest(query: string, count: int): (r: Request)
    ensures 1 <= r.count <= 20 && r.q == query && r.resultFilter == Some("news")
    ensures r.count == ClampCount(count) && r.freshness == "pd"
  {
    Request(query, ClampCount(count), "pd", Some("news"))
  }

  /** How the HTTP exchange ended: a request error, a body that is not JSON, or decoded data. */
  datatype HttpOutcome = RequestFailed(detail: string) | Undecodable | Decoded(data: Json)

  /** The reply dictionary of both tools. */
  datatype Reply<R> = Reply(
    success: bool, error: Option<string>, query: Option<string>, totalResults: Option<nat>, results: seq<R>)

  function FailureReply<R>(error: string): Reply<R>
  {
    Reply(false, Some(error), None, None, [])
  }

  /** `if not api_key`: no variable, or an empty one. */
  predicate KeySet(apiKey: Option<string>)
  {
    apiKey.Some? && apiKey.value != ""
  }

  const NoKeyError: string := "BRAVE_API_KEY not configured"

  /**
   * Shared shape of both tools: check the key, send the request, decode, and turn
   * the items into records. `service` prefixes the request-failure message, `parse`
   * is the message for an undecodable body, and `raised` stands for the text of an
   * exception raised while shaping.
   */
  function Tool<R>(apiKey: Option<string>, query: string, request: Request, http: Request -> HttpOutcome,
                   service: string, parse: string, items: Json -> Option<seq<Json>>,
                   record: Json -> Option<R>, raised: string): (r: Reply<R>)
    ensures !r.success ==> r.results == [] && r.error.Some? && r.query.None? && r.totalResults.None?
    ensures r.success ==> r.error.None? && r.query == Some(query) && r.totalResults == Some(|r.results|)
    ensures r.success <==> KeySet(apiKey) && http(request).Decoded?
                           && items(http(request).data).Some?
                           && Seqs.MapAll(items(http(request).data).value, record).Some?
    ensures r.success ==> RecordsOf(items(http(request).data).value, record, r.results)
  {
    if !KeySet(apiKey) then FailureReply(NoKeyError)
    else match http(request)
      case RequestFailed(detail) => FailureReply(service + " request failed: " + detail)
      case Undecodable => FailureReply(parse)
      case Decoded(data) =>
        match items(data)
        case None => FailureReply(raised)
        case Some(xs) =>
          match Seqs.MapAll(xs, record)
          case None => FailureReply(raised)
          case Some(records) => Reply(true, None, Some(query), Some(|records|), records)
  }

  /** `results` holds the record of each item, one for one and in order. */
  ghost predicate RecordsOf<R>(items: seq<Json>, record: Json -> Option<R>, results: seq<R>)
  {
    |results| == |items| && forall i :: 0 <= i < |items| ==> record(items[i]) == Some(results[i])
  }

  /** Every item gives a record: the shaping loop does not raise. */
  ghost predicate AllShape<R>(items: seq<Json>, record: Json -> Option<R>)
  {
    forall i :: 0 <= i < |items| ==> record(items[i]).Some?
  }

  /** `brave_search`. */
  function BraveSearch(apiKey: Option<string>, query: string, count: int, http: Request -> HttpOutcome, raised: string)
    : (r: Reply<WebRecord>)
    ensures !r.success ==> r.results == [] && r.error.Some?
    ensures r.success <==> KeySet(apiKey) && http(WebRequest(query, count)).Decoded?
                           && WebItems(http(WebRequest(query, count)).data).Some?
                           && AllShape(WebItems(http(WebRequest(query, count)).data).value, WebRecordOf)
    ensures r.success ==> r.totalResults == Some(|r.results|)
    ensures r.success ==> RecordsOf(WebItems(http(WebRequest(query, count)).data).value, WebRecordOf, r.results)
  {
    Tool(apiKey, query, WebRequest(query, count), http, "Search API", "Failed to parse search response",
      WebItems, WebRecordOf, raised)
  }

  /** `search_news`. */
  function SearchNews(apiKey: Option<string>, query: string, count: int, http: Request -> HttpOutcome, raised: string)
    : (r: Reply<NewsRecord>)
    ensures !r.success ==> r.results == [] && r.error.Some?
    ensures r.success <==> KeySet(apiKey) && http(NewsRequest(query, count)).Decoded?
                           && NewsItems(http(NewsRequest(query, count)).data).Some?
                           && AllShape(NewsItems(http(NewsRequest(query, count)).data).value, NewsRecordOf)
    ensures r.success ==> r.totalResults == Some(|r.results|)
    ensures r.success ==> RecordsOf(NewsItems(http(NewsRequest(query, count)).data).value, NewsRecordOf, r.results)
  {
    Tool(apiKey, query, NewsRequest(query, count), http, "News search API", "Failed to parse news search response",
      NewsItems, NewsRecordOf, raised)
  }

  /** Without a key the reply is the same whatever the network would do: no request is made. */
  lemma NoKeyNoRequest(apiKey: Option<string>, query: string, count: int,
                       h1: Request -> HttpOutcome, h2: Request -> HttpOutcome, raised: string)
    requires !KeySet(apiKey)
    ensures BraveSearch(apiKey, query, count, h1, raised) == BraveSearch(apiKey, query, count, h2, raised)
    ensures BraveSearch(apiKey, query, count, h1, raised) == FailureReply(NoKeyError)
    ensures SearchNews(apiKey, query, count, h1, raised) == SearchNews(apiKey, query, count, h2, raised)
    ensures SearchNews(apiKey, query, count, h1, raised) == FailureReply(NoKeyError)
  {
  }

  /** The API sees the clamped count, whatever was asked for. */
  lemma RequestCountClamped(query: string, count: int)
    ensures WebRequest(query, count).count == ClampCount(count)
    ensures NewsRequest(query, count).count == ClampCount(count)
    ensures 1 <= count <= 20 ==> WebRequest(query, count).count == count && NewsRequest(query, count).count == count
    ensures count > 20 ==> WebRequest(query, count) == WebRequest(query, 20) && NewsRequest(query, count) == NewsRequest(query, 20)
    ensures count < 1 ==> WebRequest(query, count) == WebRequest(query, 1) && NewsRequest(query, count) == NewsRequest(query, 1)
  {
  }

  /** The web record a dict gives, read field by field; `thumbnail` is `src` of a truthy dict, else `""`. */
  function DictWebRecord(m: map<string, Json>): WebRecord
  {
    WebRecord(Field(m, "title"), Field(m, "url"), Field(m, "description"), Field(m, "published"),
      NestedValue(m, "thumbnail", "src"))
  }

  /**
   * A decoded list of web results gives one record per result, in order, each field
   * taken from the result or `""` when missing; the search fails exactly when some
   * result has a truthy `thumbnail` that is not a dict.
   */
  lemma WebRecordsFollowResults(apiKey: Option<string>, query: string, count: int,
                                http: Request -> HttpOutcome, raised: string, results: seq<map<string, Json>>)
    requires KeySet(apiKey)
    requires http(WebRequest(query, count)) == Decoded(JObj(map["web" := JObj(map["results" := JArr(Objects(results))])]))
    ensures var r := BraveSearch(apiKey, query, count, http, raised);
      && (r.success <==> forall i :: 0 <= i < |results| ==> NestedReadable(results[i], "thumbnail"))
      && (r.success ==> |r.results| == |results| && forall i :: 0 <= i < |results| ==> r.results[i] == DictWebRecord(results[i]))
  {
    var data := JObj(map["web" := JObj(map["results" := JArr(Objects(results))])]);
    assert WebItems(data) == Some(Objects(results));
    WebRecordsOfObjects(results);
  }

  /** Dicts give records exactly when every thumbnail can be read, and then their records, field by field. */
  lemma WebRecordsOfObjects(results: seq<map<string, Json>>)
    ensures var xs := Objects(results);
      && (AllShape(xs, WebRecordOf) <==> forall i :: 0 <= i < |results| ==> NestedReadable(results[i], "thumbnail"))
      && (AllShape(xs, WebRecordOf) ==> forall i :: 0 <= i < |results| ==> WebRecordOf(xs[i]) == Some(DictWebRecord(results[i])))
  {
    var xs := Objects(results);
    forall i | 0 <= i < |results|
      ensures WebRecordOf(xs[i]).Some? <==> NestedReadable(results[i], "thumbnail")
      ensures WebRecordOf(xs[i]).Some? ==> WebRecordOf(xs[i]) == Some(DictWebRecord(results[i]))
    {
      assert xs[i] == JObj(results[i]);
    }
  }

  /** The news record a dict gives, read field by field. */
  function DictNewsRecord(m: map<string, Json>): NewsRecord
  {
    NewsRecord(Field(m, "title"), Field(m, "url"), Field(m, "description"), AgeOrPublished(m),
      NestedValue(m, "profile", "name"), NestedValue(m, "thumbnail", "src"))
  }

  /**
   * A non-empty list of news results gives one news record per result, in order;
   * the search fails exactly when some result has a truthy `profile` or `thumbnail`
   * that is not a dict.
   */
  lemma NewsRecordsFollowResults(apiKey: Option<string>, query: string, count: int,
                                 http: Request -> HttpOutcome, raised: string, results: seq<map<string, Json>>)
    requires KeySet(apiKey) && results != []
    requires http(NewsRequest(query, count)) == Decoded(JObj(map["news" := JObj(map["results" := JArr(Objects(results))])]))
    ensures var r := SearchNews(apiKey, query, count, http, raised);
      && (r.success <==> forall i :: 0 <= i < |results| ==> NewsReadable(results[i]))
      && (r.success ==> |r.results| == |results| && forall i :: 0 <= i < |results| ==> r.results[i] == DictNewsRecord(results[i]))
  {
    var data := JObj(map["news" := JObj(map["results" := JArr(Objects(results))])]);
    NewsPreferred(data, Objects(results));
    NewsRecordsOfObjects(results);
  }

  predicate NewsReadable(m: map<string, Json>)
  {
    NestedReadable(m, "profile") && NestedReadable(m, "thumbnail")
  }

  /** Dicts give news records exactly when every profile and thumbnail can be read, and then field by field. */
  lemma NewsRecordsOfObjects(results: seq<map<string, Json>>)
    ensures var xs := Objects(results);
      && (AllShape(xs, NewsRecordOf) <==> forall i :: 0 <= i < |results| ==> NewsReadable(results[i]))
      && (AllShape(xs, NewsRecordOf) ==> forall i :: 0 <= i < |results| ==> NewsRecordOf(xs[i]) == Some(DictNewsRecord(results[i])))
  {
    var xs := Objects(results);
    forall i | 0 <= i < |results|
      ensures NewsRecordOf(xs[i]).Some? <==> NewsReadable(results[i])
      ensures NewsRecordOf(xs[i]).Some? ==> NewsRecordOf(xs[i]) == Some(DictNewsRecord(results[i]))
    {
      assert xs[i] == JObj(results[i]);
    }
  }

  /** Dicts as JSON objects. */
  function Objects(ms: seq<map<string, Json>>): (r: seq<Json>)
    ensures |r| == |ms| && forall i :: 0 <= i < |ms| ==> r[i] == JObj(ms[i])
  {
    Seqs.Map(ms, m => JObj(m))
  }

  /** With no news section, or an empty one, the news tool reports the web results. */
  lemma NewsFallsBackToWeb(data: Json)
    requires data.JObj?
    requires "news" !in data.fields || data.fields["news"] == JObj(map[]) ||
             data.fields["news"] == JObj(map["results" := JArr([])])
    ensures NewsItems(data) == WebItems(data)
  {
  }

  /** With a non-empty list of news results, those are reported. */
  lemma NewsPreferred(data: Json, news: seq<Json>)
    requires data.JObj? && news != []
    requires "news" in data.fields && data.fields["news"] == JObj(map["results" := JArr(news)])
    ensures NewsItems(data) == Some(news)
  {
  }

  /** `published` is `age` when present, else `published`, else `""`. */
  lemma NewsPublishedPrecedence(m: map<string, Json>)
    requires "profile" !in m && "thumbnail" !in m
    ensures NewsRecordOf(JObj(m)).Some?
    ensures NewsRecordOf(JObj(m)).value.published ==
      if "age" in m then m["age"] else if "published" in m then m["published"] else EmptyStr
    ensures NewsRecordOf(JObj(m)).value.source == EmptyStr
  {
  }

  /** A result that is not an object makes the whole search fail, with no records. */
  lemma NonObjectResultFails(apiKey: Option<string>, query: string, count: int,
                             http: Request -> HttpOutcome, raised: string, before: seq<Json>, bad: Json, after: seq<Json>)
    requires KeySet(apiKey) && !bad.JObj?
    requires http(WebRequest(query, count)) == Decoded(JObj(map["web" := JObj(map["results" := JArr(before + [bad] + after)])]))
    ensures BraveSearch(apiKey, query, count, http, raised) == FailureReply(raised)
  {
    var xs := before + [bad] + after;
    var data := JObj(map["web" := JObj(map["results" := JArr(xs)])]);
    assert WebItems(data) == Some(xs);
    assert xs[|before|] == bad;
    assert WebRecordOf(xs[|before|]).None?;
  }

  /** The cache file: `search_` + the query with `_` for spaces, cut to 50 characters, + `.json`. */
  function ResultsFileName(query: string): (r: string)
    ensures |r| == 12 + (if |query| < 50 then |query| else 50)
    ensures r[..7] == "search_" && r[|r| - 5..] == ".json"
    ensures forall i :: 7 <= i < |r| - 5 ==> r[i] != ' '
  {
    var replaced := ReplaceChar(query, ' ', '_');
    "search_" + replaced[..if |replaced| < 50 then |replaced| else 50] + ".json"
  }

  /** Cutting after replacing is replacing after cutting: the name depends on the first 50 characters only. */
  lemma ResultsFileNameCut(query: string)
    ensures var n := if |query| < 50 then |query| else 50;
      ResultsFileName(query) == "search_" + ReplaceChar(query[..n], ' ', '_') + ".json"
    ensures |query| >= 50 ==> ResultsFileName(query) == ResultsFileName(query[..50])
  {
    var n := if |query| < 50 then |query| else 50;
    assert ReplaceChar(query, ' ', '_')[..n] == ReplaceChar(query[..n], ' ', '_');
    if |query| >= 50 {
      assert query[..50][..50] == query[..50];
    }
  }
}

=== FILE: selection.dfy ===
/**
 * The agent program's start-up decisions: which language-model provider to use,
 * which MCP servers to configure and keep, how often the crew is started, and the
 * topic used when none is given.
 */
module Selection {
  import opened Wrappers
  import opened PyStr
  import Seqs
  import Commands

  /** The process environment as `os.getenv` sees it. */
  type Env = map<string, string>

  /** `os.getenv(name)`. */
  function GetEnv(env: Env, name: string): (r: Option<string>)
    ensures r.Some? <==> name in env
    ensures r.Some? ==> r.value == env[name]
  {
    if name in env then Some(env[name]) else None
  }

  /** One provider entry: a display name, a model id and the variable holding its key (none for a local model). */
  datatype LlmConfig = LlmConfig(name: string, model: string, keyVar: Option<string>)

  const Groq: LlmConfig := LlmConfig("Groq Llama", "groq/llama-3.3-70b-versatile", Some("GROQ_API_KEY"))
  const OpenAi: LlmConfig := LlmConfig("OpenAI GPT-4", "gpt-4o-mini", Some("OPENAI_API_KEY"))
  const Anthropic: LlmConfig := LlmConfig("Anthropic Claude", "claude-3-haiku-20240307", Some("ANTHROPIC_API_KEY"))
  const Ollama: LlmConfig := LlmConfig("Ollama Local", "ollama/llama3.2", None)

  /** The providers in the order they are tried. */
  const LlmConfigs: seq<LlmConfig> := [Groq, OpenAi, Anthropic, Ollama]

  /**
   * Whether constructing the client for a provider with the given key succeeds;
   * the constructor belongs to an external library, so this is an input.
   */
  type Builds = (LlmConfig, Option<string>) -> bool

  /** The chosen client: one of the listed providers, or the hard-coded Groq fallback. */
  datatype LlmChoice =
    | Chosen(config: LlmConfig, key: Option<string>)
    | Fallback(model: string, fallbackKey: string)

  /**
   * The key a provider would be constructed with, when it is tried at all: no key
   * for a local model, otherwise a non-empty value of its variable.
   */
  function TriedWith(c: LlmConfig, env: Env): (r: Option<Option<string>>)
    ensures c.keyVar.None? ==> r == Some(None)
    ensures c.keyVar.Some? ==> (r.Some? <==> c.keyVar.value in env && env[c.keyVar.value] != "")
  {
    match c.keyVar
    case None => Some(None)
    case Some(v) =>
      match GetEnv(env, v)
      case Some(key) => if key != "" then Some(Some(key)) else None
      case None => None
  }

  /** A provider is used when it is tried and its construction does not raise. */
  predicate Usable(c: LlmConfig, env: Env, builds: Builds)
  {
    TriedWith(c, env).Some? && builds(c, TriedWith(c, env).value)
  }

  /** `get_available_llm` over a list of providers: the first usable one, else the fallback. */
  function SelectLlm(configs: seq<LlmConfig>, env: Env, builds: Builds): (r: LlmChoice)
    ensures r.Chosen? ==> r.config in configs && Usable(r.config, env, builds)
    ensures r.Fallback? ==> r.model == Groq.model
  {
    if configs == [] then
      Fallback(Groq.model, GetEnv(env, "GROQ_API_KEY").GetOr(""))
    else if Usable(configs[0], env, builds) then
      Chosen(configs[0], TriedWith(configs[0], env).value)
    else SelectLlm(configs[1..], env, builds)
  }

  /** The provider chosen is the first usable one in list order; the fallback means none is usable. */
  lemma {:induction false} SelectLlmIsFirstUsable(configs: seq<LlmConfig>, env: Env, builds: Builds)
    ensures var first := Seqs.FirstWhere(configs, c => Usable(c, env, builds));
      match first
      case Some(i) => SelectLlm(configs, env, builds) == Chosen(configs[i], TriedWith(configs[i], env).value)
      case None => SelectLlm(configs, env, builds) == Fallback(Groq.model, GetEnv(env, "GROQ_API_KEY").GetOr(""))
  {
    var p := c => Usable(c, env, builds);
    if configs != [] && !p(configs[0]) {
      SelectLlmIsFirstUsable(configs[1..], env, builds);
      var rest := Seqs.FirstWhere(configs[1..], p);
      var first := Seqs.FirstWhere(configs, p);
      match rest
      case Some(j) =>
        assert first == Some(j + 1) by {
          Seqs.FirstWhereTail(configs, p, j);
        }
      case None =>
        assert first == None by {
          forall k | 0 <= k < |configs| ensures !p(configs[k]) {
            if k > 0 { assert configs[k] == configs[1..][k - 1]; }
          }
        }
    }
  }

  /** An empty key counts as no key: setting a variable to `""` changes nothing. */
  lemma {:induction false} EmptyKeyIsAbsent(configs: seq<LlmConfig>, env: Env, builds: Builds, v: string)
    ensures SelectLlm(configs, env[v := ""], builds) == SelectLlm(configs, env - {v}, builds)
  {
    if configs != [] {
      assert TriedWith(configs[0], env[v := ""]) == TriedWith(configs[0], env - {v});
      EmptyKeyIsAbsent(configs[1..], env, builds, v);
    }
  }

  /**
   * With the program's list, the key-less local model is always tried, so the
   * hard-coded fallback is reached only when constructing it raises.
   */
  lemma FallbackOnlyIfLocalFails(env: Env, builds: Builds)
    ensures SelectLlm(LlmConfigs, env, builds).Fallback? ==> !builds(Ollama, None)
    ensures SelectLlm(LlmConfigs, env, builds).Fallback? <==>
      (forall i :: 0 <= i < |LlmConfigs| ==> !Usable(LlmConfigs[i], env, builds))
  {
    SelectLlmIsFirstUsable(LlmConfigs, env, builds);
    assert LlmConfigs[3] == Ollama;
    assert TriedWith(Ollama, env) == Some(None);
  }

  /** With a Groq key set and its client building, Groq is chosen. */
  lemma GroqFirst(env: Env, builds: Builds)
    requires "GROQ_API_KEY" in env && env["GROQ_API_KEY"] != ""
    requires builds(Groq, Some(env["GROQ_API_KEY"]))
    ensures SelectLlm(LlmConfigs, env, builds) == Chosen(Groq, Some(env["GROQ_API_KEY"]))
  {
    assert LlmConfigs[0] == Groq;
  }

  /** One MCP server launch description: a name, the command and its arguments. */
  datatype ServerConfig = ServerConfig(name: string, command: string, args: seq<string>)

  /** The path `<base>/servers/<file>`. */
  function ServerScript(base: string, sep: string, file: string): (r: string)
    ensures |r| == |base| + 2 * |sep| + 7 + |file|
    ensures r[..|base|] == base && r[|r| - |file|..] == file
    ensures r[|base|..|r| - |file|] == sep + "servers" + sep
  {
    base + sep + "servers" + sep + file
  }

  /** A Python server: `python` on the script `servers/<file>`, under the given name. */
  function PythonServer(name: string, base: string, sep: string, file: string): (r: ServerConfig)
    ensures r.name == name && r.command == "python"
    ensures |r.args| == 1 && r.args[0] == ServerScript(base, sep, file)
  {
    ServerConfig(name, "python", [ServerScript(base, sep, file)])
  }

  function ImageServer(base: string, sep: string): ServerConfig
  {
    PythonServer("Image Server", base, sep, "image_server.py")
  }

  function SearchServer(base: string, sep: string): ServerConfig
  {
    PythonServer("Python Search Server", base, sep, "search_server.py")
  }

  /** The filesystem server: the npm package run through `npx -y`, serving the downloads folder. */
  function FilesystemServer(npx: string, downloads: string): (r: ServerConfig)
    ensures r.name == "Filesystem Server" && r.command == npx
    ensures |r.args| == 3 && r.args[0] == "-y" && r.args[1] == "@modelcontextprotocol/server-filesystem"
    ensures r.args[2] == downloads
  {
    ServerConfig("Filesystem Server", npx, ["-y", "@modelcontextprotocol/server-filesystem", downloads])
  }

  /** What `get_working_servers` learns from the machine. */
  datatype Probe = Probe(
    imageScript: bool,            // servers/image_server.py exists
    searchScript: bool,           // servers/search_server.py exists
    npxRun: Commands.ExecResult,  // `npx --version`
    nodeRun: Commands.ExecResult) // `node --version`

  /** The three server descriptions differ, if only by name. */
  lemma ServersDistinct(base: string, sep: string, npx: string, downloads: string)
    ensures ImageServer(base, sep) != SearchServer(base, sep)
    ensures ImageServer(base, sep) != FilesystemServer(npx, downloads)
    ensures SearchServer(base, sep) != FilesystemServer(npx, downloads)
  {
    assert |ImageServer(base, sep).name| == 12;
    assert |SearchServer(base, sep).name| == 20;
    assert |FilesystemServer(npx, downloads).name| == 17;
  }

  /** `get_working_servers`: image, search and filesystem servers, each kept when its check passes. */
  function WorkingServers(probe: Probe, base: string, sep: string, npx: string, downloads: string): (r: seq<ServerConfig>)
    ensures |r| <= 3
    ensures ImageServer(base, sep) in r <==> probe.imageScript
    ensures SearchServer(base, sep) in r <==> probe.searchScript
    ensures FilesystemServer(npx, downloads) in r <==>
      Commands.CommandSucceeded(probe.npxRun) && Commands.NodeCompatible(probe.nodeRun)
    ensures Seqs.IsSubsequence(r, [ImageServer(base, sep), SearchServer(base, sep), FilesystemServer(npx, downloads)])
  {
    ServersDistinct(base, sep, npx, downloads);
    Seqs.KeepSome(ImageServer(base, sep), SearchServer(base, sep), FilesystemServer(npx, downloads),
      probe.imageScript, probe.searchScript,
      Commands.CommandSucceeded(probe.npxRun) && Commands.NodeCompatible(probe.nodeRun))
  }

  /** The launch descriptions of `(name, description)` pairs, in order. */
  function Params(configs: seq<(string, ServerConfig)>): (r: seq<ServerConfig>)
    ensures |r| == |configs|
    ensures forall i :: 0 <= i < |configs| ==> r[i] == configs[i].1
  {
    Seqs.Map(configs, (e: (string, ServerConfig)) => e.1)
  }

  /** The `(name, description)` pairs `get_working_servers` hands on, each named by its description. */
  function Named(servers: seq<ServerConfig>): (r: seq<(string, ServerConfig)>)
    ensures Params(r) == servers
    ensures forall i :: 0 <= i < |r| ==> r[i].0 == servers[i].name
  {
    Seqs.Map(servers, (s: ServerConfig) => (s.name, s))
  }

  /** Testing the configured servers keeps some of them, in order, and only those that connect. */
  lemma WorkingThenTested(probe: Probe, base: string, sep: string, npx: string, downloads: string,
                          connects: ServerConfig -> bool)
    ensures var configured := WorkingServers(probe, base, sep, npx, downloads);
      var w := Seqs.Filter(Params(Named(configured)), connects);
      && Seqs.IsSubsequence(w, configured)
      && (forall i :: 0 <= i < |w| ==> connects(w[i]))
      && (ImageServer(base, sep) in w <==> probe.imageScript && connects(ImageServer(base, sep)))
  {
    var configured := WorkingServers(probe, base, sep, npx, downloads);
    TestedServersAreSublist(Named(configured), connects);
    Seqs.FilterMembership(configured, connects, ImageServer(base, sep));
  }

  /**
   * `test_servers_individually`: opens each server on its own and keeps the
   * descriptions of those that connect, in order; `connects` stands for the outcome
   * of starting the adapter on one server.
   */
  method TestServersIndividually(configs: seq<(string, ServerConfig)>, connects: ServerConfig -> bool)
    returns (working: seq<ServerConfig>)
    ensures working == Seqs.Filter(Params(configs), connects)
  {
    working := [];
    var i := 0;
    while i < |configs|
      invariant 0 <= i <= |configs|
      invariant working == Seqs.Filter(Params(configs[..i]), connects)
    {
      var (name, params) := configs[i];
      assert Params(configs[..i + 1]) == Params(configs[..i]) + [params];
      Seqs.FilterSnoc(Params(configs[..i]), params, connects);
      if connects(params) {
        working := working + [params];
      }
      i := i + 1;
    }
    assert configs[..i] == configs;
  }

  /** Live testing neither adds nor reorders servers: the survivors are the connecting ones, in order. */
  lemma TestedServersAreSublist(configs: seq<(string, ServerConfig)>, connects: ServerConfig -> bool)
    ensures var w := Seqs.Filter(Params(configs), connects);
      && Seqs.IsSubsequence(w, Params(configs))
      && (forall i :: 0 <= i < |w| ==> connects(w[i]))
      && |w| == Seqs.CountWhere(Params(configs), connects)
  {
    Seqs.FilterIsSubsequence(Params(configs), connects);
  }

  /** Retries after the first failed start of the crew. */
  const MaxRetries: nat := 2

  /** One start of the crew: the summary it produced, or the error it raised. */
  datatype Attempt = Succeeded(summary: string) | Failed(error: string)

  /**
   * The retry loop around `crew.kickoff`: at most `MaxRetries + 1` starts; the first
   * success is returned, and the third failure's error is raised again.
   */
  method Kickoff(attempt: nat -> Attempt) returns (r: Result<string, string>, tries: nat)
    ensures 1 <= tries <= MaxRetries + 1
    ensures forall k :: 0 <= k < tries - 1 ==> attempt(k).Failed?
    ensures r.Success? <==> attempt(tries - 1).Succeeded?
    ensures r.Success? ==> r.value == attempt(tries - 1).summary
    ensures r.Failure? ==> tries == MaxRetries + 1 && r.error == attempt(MaxRetries).error
  {
    tries := 0;
    while true
      invariant tries <= MaxRetries
      invariant forall k :: 0 <= k < tries ==> attempt(k).Failed?
      decreases MaxRetries - tries
    {
      match attempt(tries)
      case Succeeded(summary) =>
        r := Success(summary);
        tries := tries + 1;
        return;
      case Failed(error) =>
        if tries < MaxRetries {
          tries := tries + 1;
        } else {
          r := Failure(error);
          tries := tries + 1;
          return;
        }
    }
  }

  /** The topic used when the answer to the prompt is empty or blank. */
  const DefaultTopicText: string := "artificial intelligence"

  /** The prompt's answer stripped, or the default topic when nothing is left. */
  function DefaultTopic(answer: string): (t: string)
    ensures t != [] && Stripped(t)
    ensures |t| <= |answer| || t == DefaultTopicText
  {
    var s := Strip(answer);
    if s == [] then
      assert DefaultTopicText[0] == 'a' && DefaultTopicText[22] == 'e';
      DefaultTopicText
    else s
  }

  /** Choosing the topic again changes nothing, and a real topic is kept as typed inside its blanks. */
  lemma DefaultTopicStable(answer: string)
    ensures DefaultTopic(DefaultTopic(answer)) == DefaultTopic(answer)
    ensures Strip(answer) != [] ==> DefaultTopic(answer) == Strip(answer)
  {
  }

  /** A blank answer gives the default topic. */
  lemma BlankAnswerIsDefault(answer: string)
    requires forall i :: 0 <= i < |answer| ==> IsSpace(answer[i])
    ensures DefaultTopic(answer) == DefaultTopicText
  {
    assert LeadingSpace(answer) == |answer|;
  }
}

=== FILE: seqs.dfy ===
/** Generic facts about sequences: order-preserving filters and first-match search. */
module Seqs {
  import opened Wrappers

  /** `sub` can be obtained from `s` by deleting elements, keeping the order of the rest. */
  predicate IsSubsequence<T(==)>(sub: seq<T>, s: seq<T>)
    decreases |s|
  {
    if sub == [] then true
    else if s == [] then false
    else if sub[0] == s[0] then IsSubsequence(sub[1..], s[1..])
    else IsSubsequence(sub, s[1..])
  }

  /** Number of elements of `s` that satisfy `p`. */
  function CountWhere<T>(s: seq<T>, p: T -> bool): nat
  {
    if s == [] then 0 else (if p(s[0]) then 1 else 0) + CountWhere(s[1..], p)
  }

  /** The elements of `s` that satisfy `p`, in their original order. */
  function Filter<T>(s: seq<T>, p: T -> bool): (r: seq<T>)
    ensures |r| <= |s|
    ensures forall i :: 0 <= i < |r| ==> p(r[i])
  {
    if s == [] then []
    else if p(s[0]) then [s[0]] + Filter(s[1..], p)
    else Filter(s[1..], p)
  }

  /** A filter keeps every satisfying element and drops every other one, in order. */
  lemma {:induction false} FilterIsSubsequence<T>(s: seq<T>, p: T -> bool)
    ensures IsSubsequence(Filter(s, p), s)
    ensures |Filter(s, p)| == CountWhere(s, p)
    decreases |s|
  {
    if s != [] {
      FilterIsSubsequence(s[1..], p);
      if p(s[0]) {
        assert Filter(s, p)[1..] == Filter(s[1..], p);
      } else {
        SubsequenceOfTail(Filter(s, p), s);
      }
    }
  }

  /** An element survives the filter exactly when it occurs and satisfies `p`. */
  lemma {:induction false} FilterMembership<T>(s: seq<T>, p: T -> bool, x: T)
    ensures x in Filter(s, p) <==> x in s && p(x)
    decreases |s|
  {
    if s != [] {
      FilterMembership(s[1..], p, x);
      assert x in s <==> x == s[0] || x in s[1..];
    }
  }

  /** Filtering one more element at the end adds it exactly when it satisfies `p`. */
  lemma {:induction false} FilterSnoc<T>(s: seq<T>, x: T, p: T -> bool)
    ensures Filter(s + [x], p) == Filter(s, p) + (if p(x) then [x] else [])
    decreases |s|
  {
    if s == [] {
      assert [] + [x] == [x];
      assert [x][1..] == [];
    } else {
      assert (s + [x])[0] == s[0];
      assert (s + [x])[1..] == s[1..] + [x];
      FilterSnoc(s[1..], x, p);
    }
  }

  /** A subsequence of the tail is a subsequence of the whole. */
  lemma {:induction false} SubsequenceOfTail<T>(sub: seq<T>, s: seq<T>)
    requires s != [] && IsSubsequence(sub, s[1..])
    ensures IsSubsequence(sub, s)
    decreases |s|, 0
  {
    if sub != [] && sub[0] == s[0] {
      SubsequenceDropFirst(sub, s[1..]);
    }
  }

  /** Dropping the first element of a subsequence keeps it a subsequence. */
  lemma {:induction false} SubsequenceDropFirst<T>(sub: seq<T>, t: seq<T>)
    requires sub != [] && IsSubsequence(sub, t)
    ensures IsSubsequence(sub[1..], t)
    decreases |t|, 1
  {
    if sub[0] == t[0] {
      SubsequenceOfTail(sub[1..], t);
    } else {
      SubsequenceDropFirst(sub, t[1..]);
      SubsequenceOfTail(sub[1..], t);
    }
  }

  /** Index of the first element of `s` that satisfies `p`, if any. */
  function FirstWhere<T>(s: seq<T>, p: T -> bool): (r: Option<nat>)
    ensures r.Some? ==> r.value < |s| && p(s[r.value])
    ensures r.Some? ==> forall j :: 0 <= j < r.value ==> !p(s[j])
    ensures r.None? ==> forall j :: 0 <= j < |s| ==> !p(s[j])
  {
    if s == [] then None
    else if p(s[0]) then Some(0)
    else match FirstWhere(s[1..], p)
      case None => None
      case Some(i) => Some(i + 1)
  }

  /** Skipping a first element that fails `p` shifts the first match by one. */
  lemma FirstWhereTail<T>(xs: seq<T>, p: T -> bool, j: nat)
    requires xs != [] && !p(xs[0]) && FirstWhere(xs[1..], p) == Some(j)
    ensures FirstWhere(xs, p) == Some(j + 1)
  {
    assert xs[j + 1] == xs[1..][j];
    forall k | 0 < k < j + 1
      ensures !p(xs[k])
    {
      assert xs[k] == xs[1..][k - 1];
    }
  }

  /**
   * Each of three distinct items kept or not, in their order: an item is in the
   * result exactly when it is kept.
   */
  function KeepSome<T(==)>(a: T, b: T, c: T, ka: bool, kb: bool, kc: bool): (r: seq<T>)
    requires a != b && a != c && b != c
    ensures |r| <= 3
    ensures (a in r <==> ka) && (b in r <==> kb) && (c in r <==> kc)
    ensures IsSubsequence(r, [a, b, c])
  {
    var tail := (if kb then [b] else []) + (if kc then [c] else []);
    assert IsSubsequence(tail, [b, c]) by {
      assert [b, c][1..] == [c];
      assert IsSubsequence(if kc then [c] else [], [c]);
      if kb {
        assert tail[0] == b && tail[1..] == (if kc then [c] else []);
      } else {
        SubsequenceOfTail(tail, [b, c]);
      }
    }
    assert [a, b, c][1..] == [b, c];
    if ka then
      assert ([a] + tail)[1..] == tail;
      [a] + tail
    else
      SubsequenceOfTail(tail, [a, b, c]);
      tail
  }

  /** Applies `f` to every element. */
  function Map<T, U>(xs: seq<T>, f: T -> U): (r: seq<U>)
    ensures |r| == |xs|
    ensures forall i :: 0 <= i < |xs| ==> r[i] == f(xs[i])
  {
    if xs == [] then [] else [f(xs[0])] + Map(xs[1..], f)
  }

  /** Applies a partial `f` to every element; absent as soon as one application is. */
  function MapAll<T, U>(xs: seq<T>, f: T -> Option<U>): (r: Option<seq<U>>)
    ensures r.Some? ==> |r.value| == |xs|
    ensures r.Some? ==> forall i :: 0 <= i < |xs| ==> f(xs[i]).Some? && r.value[i] == f(xs[i]).value
    ensures r.None? ==> exists i :: 0 <= i < |xs| && f(xs[i]).None?
  {
    if xs == [] then Some([])
    else match f(xs[0])
      case None => None
      case Some(y) =>
        match MapAll(xs[1..], f)
        case None => None
        case Some(ys) =>
          assert forall i :: 1 <= i < |xs| ==> xs[i] == xs[1..][i - 1];
          Some([y] + ys)
  }

  /** Applies `f` to every element and keeps the present results, in order. */
  function FilterMap<T, U>(xs: seq<T>, f: T -> Option<U>): (r: seq<U>)
    ensures |r| <= |xs|
  {
    if xs == [] then []
    else (match f(xs[0]) case Some(y) => [y] case None => []) + FilterMap(xs[1..], f)
  }

  /** Indexing and slicing the tail is indexing and slicing one further on. */
  lemma TailShift<T>(xs: seq<T>, j: nat)
    requires j + 1 < |xs|
    ensures xs[1..][j] == xs[j + 1]
    ensures xs[1..][j + 1..] == xs[j + 2..]
  {
  }

  lemma AppendAssoc<T>(a: seq<T>, b: seq<T>, c: seq<T>)
    ensures a + (b + c) == (a + b) + c
  {
  }

  /** Regrouping three parts separated by `s` and prefixed by `p`. */
  lemma Regroup<T>(p: seq<T>, s: seq<T>, a: seq<T>, b: seq<T>, q: seq<T>)
    ensures p + s + (a + s + (b + s + q)) == (p + s) + (a + s + b) + (s + q)
  {
  }

  /** The filter-map of an element in front of a sequence. */
  lemma FilterMapCons<T, U>(x: T, xs: seq<T>, f: T -> Option<U>)
    ensures FilterMap([x] + xs, f) == (match f(x) case Some(y) => [y] case None => []) + FilterMap(xs, f)
  {
    assert ([x] + xs)[0] == x && ([x] + xs)[1..] == xs;
  }

  lemma {:induction false} FilterMapConcat<T, U>(xs: seq<T>, ys: seq<T>, f: T -> Option<U>)
    ensures FilterMap(xs + ys, f) == FilterMap(xs, f) + FilterMap(ys, f)
    decreases |xs|
  {
    if xs != [] {
      var x, t := xs[0], xs[1..];
      var h := match f(x) case Some(y) => [y] case None => [];
      ConsAppend(xs, ys);
      FilterMapCons(x, t + ys, f);
      FilterMapConcat(t, ys, f);
      assert xs == [x] + t;
      FilterMapCons(x, t, f);
      AppendAssoc(h, FilterMap(t, f), FilterMap(ys, f));
    } else {
      assert xs + ys == ys;
    }
  }

  /** Putting the head back in front of the tail and something after it. */
  lemma ConsAppend<T>(xs: seq<T>, ys: seq<T>)
    requires xs != []
    ensures [xs[0]] + (xs[1..] + ys) == xs + ys
  {
    assert xs == [xs[0]] + xs[1..];
  }

  /** Splitting the first element off the right operand of a concatenation. */
  lemma AppendCons<T>(xs: seq<T>, ys: seq<T>)
    requires ys != []
    ensures xs + ys == xs + [ys[0]] + ys[1..]
  {
    assert ys == [ys[0]] + ys[1..];
  }

  /** Two elements put in front one after the other. */
  lemma ConsCons<T>(a: T, b: T, xs: seq<T>)
    ensures [a] + ([b] + xs) == [a, b] + xs
  {
  }

  /** Dropping the part before a middle element. */
  lemma DropBefore<T>(xs: seq<T>, x: T, ys: seq<T>)
    ensures (xs + [x] + ys)[|xs|..] == [x] + ys
    ensures (xs + [x] + ys)[|xs|] == x
  {
  }

  /** A window starting at `k` is its first element followed by a prefix of what comes after. */
  lemma WindowSplit<T>(xs: seq<T>, k: nat, e: nat)
    requires k + 1 + e <= |xs|
    ensures xs[k..k + 1 + e] == [xs[k]] + xs[k + 1..][..e]
  {
  }

  /** A single element contributes its image, or nothing. */
  lemma FilterMapSingle<T, U>(x: T, f: T -> Option<U>)
    ensures f(x).Some? ==> FilterMap([x], f) == [f(x).value]
    ensures f(x).None? ==> FilterMap([x], f) == []
  {
    assert [x][1..] == [];
  }

  /** An element the filter-map drops can be cut out of the input. */
  lemma FilterMapAroundDropped<T, U>(xs: seq<T>, keep: T, drop: T, ys: seq<T>, f: T -> Option<U>)
    requires f(keep).Some? && f(drop).None?
    ensures FilterMap(xs + [keep, drop] + ys, f) == FilterMap(xs, f) + [f(keep).value] + FilterMap(ys, f)
  {
    assert xs + [keep, drop] + ys == xs + ([keep] + ([drop] + ys));
    FilterMapConcat(xs, [keep] + ([drop] + ys), f);
    FilterMapConcat([keep], [drop] + ys, f);
    FilterMapConcat([drop], ys, f);
    FilterMapSingle(keep, f);
    FilterMapSingle(drop, f);
  }

  /** Every element of a filter-map is the image of some element. */
  lemma {:induction false} FilterMapImage<T, U>(xs: seq<T>, f: T -> Option<U>, P: U -> bool)
    requires forall i :: 0 <= i < |xs| ==> f(xs[i]).Some? ==> P(f(xs[i]).value)
    ensures forall k :: 0 <= k < |FilterMap(xs, f)| ==> P(FilterMap(xs, f)[k])
    decreases |xs|
  {
    if xs != [] {
      FilterMapImage(xs[1..], f, P);
    }
  }

  /** A filter-map that keeps every element unchanged is the identity. */
  lemma {:induction false} FilterMapKeepsAll<T>(xs: seq<T>, f: T -> Option<T>)
    requires forall i :: 0 <= i < |xs| ==> f(xs[i]) == Some(xs[i])
    ensures FilterMap(xs, f) == xs
    decreases |xs|
  {
    if xs != [] {
      FilterMapKeepsAll(xs[1..], f);
    }
  }

  /** Concatenation of `f` over the elements. */
  function FlatMap<T, U>(xs: seq<T>, f: T -> seq<U>): seq<U>
  {
    if xs == [] then [] else f(xs[0]) + FlatMap(xs[1..], f)
  }

  /** A flat-map over an element in front of a sequence. */
  lemma FlatMapCons<T, U>(x: T, xs: seq<T>, f: T -> seq<U>)
    ensures FlatMap([x] + xs, f) == f(x) + FlatMap(xs, f)
  {
    assert ([x] + xs)[1..] == xs;
  }

  /** A flat-map over a window: its first element, then a prefix of what comes after. */
  lemma FlatMapWindow<T, U>(xs: seq<T>, k: nat, e: nat, f: T -> seq<U>)
    requires k + 1 + e <= |xs|
    ensures FlatMap(xs[k..k + 1 + e], f) == f(xs[k]) + FlatMap(xs[k + 1..][..e], f)
  {
    WindowSplit(xs, k, e);
    FlatMapCons(xs[k], xs[k + 1..][..e], f);
  }

  /** Index of the first element satisfying `stop`, or the length when none does. */
  function StopAt<T>(xs: seq<T>, stop: T -> bool): (e: nat)
    ensures e <= |xs|
  {
    match FirstWhere(xs, stop)
    case Some(e) => e
    case None => |xs|
  }

  /** A first element that does not stop the run leaves the run one longer than the rest's. */
  lemma StopAtStep<T, U>(xs: seq<T>, stop: T -> bool, f: T -> seq<U>)
    requires xs != [] && !stop(xs[0])
    ensures StopAt(xs, stop) == 1 + StopAt(xs[1..], stop)
    ensures FlatMap(xs[..StopAt(xs, stop)], f) == f(xs[0]) + FlatMap(xs[1..][..StopAt(xs[1..], stop)], f)
  {
    var e := StopAt(xs, stop);
    assert e == 1 + StopAt(xs[1..], stop);
    assert xs[..e][0] == xs[0];
    assert xs[..e][1..] == xs[1..][..e - 1];
  }

  /**
   * The images of the window that opens at the first element satisfying `start` and
   * closes just before the first LATER element satisfying `stop`; empty when nothing opens it.
   */
  function Window<T, U>(xs: seq<T>, start: T -> bool, stop: T -> bool, f: T -> seq<U>): seq<U>
  {
    match FirstWhere(xs, start)
    case None => []
    case Some(k) => FlatMap(Span(xs, k, stop), f)
  }

  /** The elements from index `k` up to, not including, the first later one satisfying `stop`. */
  function Span<T>(xs: seq<T>, k: nat, stop: T -> bool): (r: seq<T>)
    requires k < |xs|
  {
    xs[k..k + 1 + StopAt(xs[k + 1..], stop)]
  }

  /** Unfolding the window once its opening index is known. */
  lemma WindowAt<T, U>(xs: seq<T>, start: T -> bool, stop: T -> bool, f: T -> seq<U>, k: nat)
    requires FirstWhere(xs, start) == Some(k)
    ensures Window(xs, start, stop, f)
         == f(xs[k]) + FlatMap(xs[k + 1..][..StopAt(xs[k + 1..], stop)], f)
  {
    var e := StopAt(xs[k + 1..], stop);
    assert Span(xs, k, stop) == xs[k..k + 1 + e];
    FlatMapWindow(xs, k, e, f);
  }

  /** Every element of a flat-map comes from the image of some element. */
  lemma {:induction false} FlatMapImage<T, U>(xs: seq<T>, f: T -> seq<U>, P: U -> bool)
    requires forall i, k :: 0 <= i < |xs| && 0 <= k < |f(xs[i])| ==> P(f(xs[i])[k])
    ensures forall k :: 0 <= k < |FlatMap(xs, f)| ==> P(FlatMap(xs, f)[k])
    decreases |xs|
  {
    if xs != [] {
      FlatMapImage(xs[1..], f, P);
      var h := f(xs[0]);
      var t := FlatMap(xs[1..], f);
      assert forall k :: 0 <= k < |h| ==> P(h[k]);
      assert forall k :: |h| <= k < |h + t| ==> (h + t)[k] == t[k - |h|];
    }
  }

  /** Some element satisfies `p`. */
  predicate Any<T>(xs: seq<T>, p: T -> bool)
  {
    exists i :: 0 <= i < |xs| && p(xs[i])
  }

  /** The longest run of `p`-elements at the end of `xs`. */
  function TrailingRun<T>(xs: seq<T>, p: T -> bool): (r: seq<T>)
    ensures |r| <= |xs|
    ensures forall i :: 0 <= i < |r| ==> r[i] == xs[|xs| - |r| + i] && p(r[i])
    ensures |r| < |xs| ==> !p(xs[|xs| - |r| - 1])
  {
    if xs == [] || !p(xs[|xs| - 1]) then []
    else TrailingRun(xs[..|xs| - 1], p) + [xs[|xs| - 1]]
  }

  /** `xs` without its trailing elements that fail `p`. */
  function TrimTail<T>(xs: seq<T>, p: T -> bool): (r: seq<T>)
    ensures |r| <= |xs| && r == xs[..|r|]
    ensures r == [] || p(r[|r| - 1])
    ensures forall i :: |r| <= i < |xs| ==> !p(xs[i])
    ensures r != [] <==> Any(xs, p)
  {
    if xs == [] || p(xs[|xs| - 1]) then xs
    else TrimTail(xs[..|xs| - 1], p)
  }

  /** The last maximal run of consecutive `p`-elements of `xs` (empty when there is none). */
  function LastRun<T>(xs: seq<T>, p: T -> bool): (r: seq<T>)
    ensures r != [] <==> Any(xs, p)
    ensures forall i :: 0 <= i < |r| ==> p(r[i])
  {
    TrailingRun(TrimTail(xs, p), p)
  }

  lemma TrailingRunSnoc<T>(xs: seq<T>, x: T, p: T -> bool)
    ensures TrailingRun(xs + [x], p) == if p(x) then TrailingRun(xs, p) + [x] else []
  {
    assert (xs + [x])[..|xs|] == xs;
  }

  lemma LastRunSnoc<T>(xs: seq<T>, x: T, p: T -> bool)
    ensures !p(x) ==> LastRun(xs + [x], p) == LastRun(xs, p)
    ensures !p(x) ==> (Any(xs + [x], p) <==> Any(xs, p))
    ensures p(x) ==> LastRun(xs + [x], p) == TrailingRun(xs + [x], p)
  {
    assert (xs + [x])[..|xs|] == xs;
    if !p(x) {
      assert Any(xs + [x], p) ==> Any(xs, p) by {
        if Any(xs + [x], p) {
          var i :| 0 <= i < |xs + [x]| && p((xs + [x])[i]);
          assert i < |xs| && xs[i] == (xs + [x])[i];
        }
      }
      assert Any(xs, p) ==> Any(xs + [x], p) by {
        if Any(xs, p) {
          var i :| 0 <= i < |xs| && p(xs[i]);
          assert (xs + [x])[i] == xs[i];
        }
      }
    }
  }

  /** When the last element satisfies `p`, the last run is the trailing run. */
  lemma LastRunOfTrailing<T>(xs: seq<T>, p: T -> bool)
    requires TrailingRun(xs, p) != []
    ensures LastRun(xs, p) == TrailingRun(xs, p)
    ensures Any(xs, p)
  {
    var r := TrailingRun(xs, p);
    assert r[0] == xs[|xs| - |r|] && p(r[0]);
  }
}

=== FILE: setup.dfy ===
/**
 * The Node.js setup helper: how it reports API keys without showing them, how it
 * reads a yes/no answer, and which follow-up it offers after the Node.js check.
 */
module Setup {
  import opened Wrappers
  import opened PyStr
  import Seqs
  import Commands

  /** The variables reported, each with the service it unlocks. */
  const EnvVars: seq<(string, string)> := [
    ("GROQ_API_KEY", "Groq LLM API"),
    ("OPENAI_API_KEY", "OpenAI GPT API"),
    ("ANTHROPIC_API_KEY", "Anthropic Claude API"),
    ("BRAVE_API_KEY", "Brave Search API"),
    ("SEGMIND_API_KEY", "Segmind Image API")]

  /** `value[:4] + "***" + value[-4:]` for values longer than 8 characters, else `"***"`. */
  function Mask(value: string): (r: string)
    ensures |value| > 8 ==> |r| == 11 && r[..4] == value[..4] && r[4..7] == "***" && r[7..] == value[|value| - 4..]
    ensures |value| <= 8 ==> r == "***"
  {
    if |value| > 8 then value[..4] + "***" + value[|value| - 4..] else "***"
  }

  /**
   * The mask shows at most the first four and the last four characters: two
   * values that agree there are masked alike, whatever lies between.
   */
  lemma MaskHidesMiddle(a: string, b: string)
    requires |a| > 8 && |b| > 8
    requires a[..4] == b[..4] && a[|a| - 4..] == b[|b| - 4..]
    ensures Mask(a) == Mask(b)
  {
  }

  /** Every character the mask shows is a character of the value or a `*`. */
  lemma MaskShowsOnlyEnds(value: string)
    ensures forall i :: 0 <= i < |Mask(value)| ==> Mask(value)[i] == '*' || Mask(value)[i] in value
  {
    var r := Mask(value);
    if |value| > 8 {
      forall i | 0 <= i < |r|
        ensures r[i] == '*' || r[i] in value
      {
        if i < 4 {
          assert r[i] == value[i];
        } else if i >= 7 {
          assert r[i] == value[|value| - 11 + i];
        }
      }
    }
  }

  /** What `check_environment` reports for one variable: its mask when set and non-empty, else "Not set". */
  function EnvStatus(value: Option<string>): (r: Option<string>)
    ensures r.Some? <==> value.Some? && value.value != ""
    ensures r.Some? ==> r.value == Mask(value.value)
  {
    match value
    case Some(v) => if v != "" then Some(Mask(v)) else None
    case None => None
  }

  /** `check_environment`'s report: each listed variable, in order, with its description and status. */
  function EnvReport(env: map<string, string>): (r: seq<(string, string, Option<string>)>)
    ensures |r| == |EnvVars|
    ensures forall i :: 0 <= i < |EnvVars| ==> r[i].0 == EnvVars[i].0 && r[i].1 == EnvVars[i].1
    ensures forall i :: 0 <= i < |EnvVars| ==>
      (r[i].2.Some? <==> EnvVars[i].0 in env && env[EnvVars[i].0] != "")
    ensures forall i :: 0 <= i < |EnvVars| ==> r[i].2.Some? ==> r[i].2.value == Mask(env[EnvVars[i].0])
  {
    Seqs.Map(EnvVars, (e: (string, string)) =>
      (e.0, e.1, EnvStatus(if e.0 in env then Some(env[e.0]) else None)))
  }

  /** A variable set to `""` is reported as not set, like a missing one. */
  lemma EmptyVariableNotSet(env: map<string, string>, v: string)
    ensures EnvReport(env[v := ""]) == EnvReport(env - {v})
  {
    var a := EnvReport(env[v := ""]);
    var b := EnvReport(env - {v});
    forall i | 0 <= i < |EnvVars|
      ensures a[i] == b[i]
    {
    }
  }

  /** `c` is the letter `letter` in either case. */
  predicate EitherCase(c: char, letter: char)
    requires 'a' <= letter <= 'z'
  {
    c == letter || c as int == letter as int - 32
  }

  /** Every capitalisation of `y` and `yes`: each letter in either case. */
  predicate YesSpelling(t: string)
  {
    || (|t| == 1 && EitherCase(t[0], 'y'))
    || (|t| == 3 && EitherCase(t[0], 'y') && EitherCase(t[1], 'e') && EitherCase(t[2], 's'))
  }

  /** `choice.strip().lower() in ['y', 'yes']`. */
  function Accepts(choice: string): (b: bool)
    ensures b <==> YesSpelling(Strip(choice))
  {
    var t := Strip(choice);
    var c := AsciiLower(t);
    LowersTo(t, c);
    c == "y" || c == "yes"
  }

  /** A letter's two cases are exactly what lowers to it. */
  lemma LowerLetter(ch: char, letter: char)
    requires 'a' <= letter <= 'z'
    ensures LowerChar(ch) == letter <==> EitherCase(ch, letter)
  {
  }

  /** A text lowers to `y` or `yes` exactly when it is one of their capitalisations. */
  lemma LowersTo(t: string, c: string)
    requires c == AsciiLower(t)
    ensures (c == "y" || c == "yes") <==> YesSpelling(t)
  {
    if |t| == 1 {
      LowerLetter(t[0], 'y');
      assert c == "y" <==> c[0] == 'y';
    } else if |t| == 3 {
      LowerLetter(t[0], 'y');
      LowerLetter(t[1], 'e');
      LowerLetter(t[2], 's');
      assert c == "yes" <==> c[0] == 'y' && c[1] == 'e' && c[2] == 's';
    }
  }

  /** An accepted answer is one or three letters long once stripped and starts with `y` or `Y`. */
  lemma AcceptedShape(choice: string)
    requires Accepts(choice)
    ensures |Strip(choice)| == 1 || |Strip(choice)| == 3
    ensures Strip(choice)[0] == 'y' || Strip(choice)[0] == 'Y'
  {
    var t := Strip(choice);
    assert AsciiLower(t)[0] == 'y';
    assert LowerChar(t[0]) == 'y';
  }

  /** Every capitalisation of `y` and `yes`, stripped, is accepted. */
  lemma AcceptsSpellings(t: string)
    requires Stripped(t)
    requires AsciiLower(t) == "y" || AsciiLower(t) == "yes"
    ensures Accepts(t)
  {
  }

  /** A blank answer is a no. */
  lemma BlankAnswerDeclines(choice: string)
    requires forall i :: 0 <= i < |choice| ==> IsSpace(choice[i])
    ensures !Accepts(choice)
  {
    assert LeadingSpace(choice) == |choice|;
    assert AsciiLower([]) == [];
  }

  /** Surrounding blanks do not change the reading of an answer. */
  lemma AcceptsIgnoresBlanks(choice: string)
    ensures Accepts(Strip(choice)) == Accepts(choice)
  {
    StripIdempotent(choice);
  }

  /** What the helper does after asking its question. */
  datatype FollowUp = OpenDownloadPage | TestMcpServers | NoFollowUp

  /**
   * `main`'s branch: with a working Node.js it offers the server test, otherwise the
   * download page; either only on an accepted answer.
   */
  function NextAction(nodeRun: Commands.ExecResult, choice: string): (a: FollowUp)
    ensures a == TestMcpServers ==> Commands.NodeCompatible(nodeRun)
    ensures a == OpenDownloadPage ==> !Commands.NodeCompatible(nodeRun)
    ensures a != NoFollowUp <==> Accepts(choice)
  {
    if !Commands.NodeCompatible(nodeRun) then
      if Accepts(choice) then OpenDownloadPage else NoFollowUp
    else
      if Accepts(choice) then TestMcpServers else NoFollowUp
  }
}

=== FILE: wrappers.dfy ===
/** Failure-compatible wrappers used throughout the model. */
module Wrappers {

  /** A value that may be absent, as Python's `None`-or-value returns. */
  datatype Option<+T> = None | Some(value: T) {

    /** Returns the wrapped value, or `default` when absent (Python's `x or default`). */
    function GetOr(default: T): T {
      match this
      case Some(v) => v
      case None => default
    }
  }

  /** An operation that either produced a value or raised an error. */
  datatype Result<+R, +E> = Success(value: R) | Failure(error: E)
}
